=== FILE: README.md ===
# AUV mission simulation: a verified Dafny model

This project models the core of a discrete-event simulation of an autonomous underwater vehicle
(AUV) that hunts mines. A **planner** keeps a list of inspection targets. It asks the
**vehicle** for its position, orders the unclassified targets with an **open vehicle routing
(OVRP) solver** and publishes a plan. The vehicle runs an idle → navigate → inspect state
machine. The processes talk through **pipes**: delayed FIFO stores with `put` and `get`. The
messages they exchange form one closed datatype.

Modules, one per source file:

| file | module | models |
|---|---|---|
| `basics.dfy` | `Basics` | `Option` |
| `targets.dfy` | `Targets` | positions and the target record `(id, ned_pos, classification)` |
| `msgs.dfy` | `Msgs` | `msgs.py`: the four messages and Python attribute lookup on them |
| `vehicle.dfy` | `Vehicle` | `sim_auv.py`: class `Auv` |
| `pipes.dfy` | `Pipes` | `pipe_callback.py`: class `Pipe` and the re-subscribing `Receiver` |
| `ovrp.dfy` | `Ovrp` | `ovrp_solver.py`: the constraint set, the route extraction and the error return |
| `planner.dfy` | `Planner` | `sim_auv_planner.py`: class `AuvPlanner` |

Conventions:

- Virtual time is a natural number. A process's wait is returned, or added to its clock, explicitly.
- Each class whose fields the source updates in place is a Dafny `class`:
  - `Vehicle.Auv`'s `Step` is proved equal to a pure one-step function, `StepSpec`.
  - `Run` is proved equal to `StepSpec` iterated, which is `RunSpec`.
- `Pipes.Pipe` keeps the store's buffer, its queue of pending `get` requests and its running latency processes as fields. A ghost log of hand-outs, with the derived `Delivered()` and `Sent()` sequences, carries the work-queue invariant:
  - each value goes to exactly one request;
  - values go out in put order;
  - requests are served in the order they were made.
- The planner's `run` generator is cut at its `yield`s into three methods: `Begin`, `PlanTargets` and `FinishPlanning`. Each returns the wait that follows it, and a `pc` field records where the process resumes.
- The solver is an oracle: an `Answer` that is either an optimal assignment satisfying every constraint the source builds, or a solver error. What the model proves about the returned route follows from those constraints alone:
  - it is a single open path from the start to the finish;
  - it visits every point once;
  - it runs along selected edges.

## Model

| member | source | states |
|---|---|---|
| Vehicle.MoveTime | sim_auv.py:96-100 | a move waits the largest whole number of time units whose travel at 0.4 m per unit fits in the distance |
| Vehicle.RotateTime | sim_auv.py:102-106 | a turn waits the largest whole number of time units whose rotation at 0.3 rad per unit fits in the absolute angle |
| Vehicle.StepSpec | sim_auv.py:44-75 | one pass of the loop: the current state becomes the previous next state, the clock never goes back, and the target list either stays as it is or loses exactly its first entry, which becomes the goal of an idle vehicle |
| Vehicle.IdleTakesFirstTarget | sim_auv.py:44-58 | idle with targets left: the first target becomes the goal, the rest stay in order, the next state is navigate, and no time passes |
| Vehicle.IdleWithoutTargetsWaits | sim_auv.py:59-61 | idle with no targets: the state stays idle and exactly one time unit passes |
| Vehicle.NavigateArrives | sim_auv.py:62-65 | navigating always leads to inspecting; afterwards the vehicle is at the goal, the list is untouched, and the turn time plus the move time has passed |
| Vehicle.InspectWaits | sim_auv.py:66-71 | inspecting waits exactly the inspection duration of 120 time units, returns to idle and leaves the target list and the position alone |
| Vehicle.UnknownStateFallsBackToIdle | sim_auv.py:72-75 | an unknown state code sets the next state to idle and changes nothing else |
| Vehicle.ErrorBranchUnreachable | sim_auv.py:15-17 | from construction, every state reached after any number of passes is one of the three known codes, so the error branch never runs |
| Vehicle.StepBalance | sim_auv.py:44-75 | in one pass, the target taken (only when idle with targets left) followed by the list left is the list before; a pass moves one unit from the list to the target in progress, or, when it inspects, uses that target up |
| Vehicle.RunConservesTargets | sim_auv.py:48-52 | over any run, the targets taken followed by those left are the original list; inspections done, plus the target in progress, plus targets left, always equal the original count |
| Vehicle.InspectionsBoundedByTargets | sim_auv.py:33-36 | from construction, the targets visited are a prefix of the given list, and inspections never outnumber the targets |
| Vehicle.Auv.constructor | sim_auv.py:23-36 | a new vehicle is idle at the origin with yaw 0 at time 0 and holds the given list |
| Vehicle.Auv.Step | sim_auv.py:41-75 | one loop pass updates the fields exactly as the pure one-step function says |
| Vehicle.Auv.Run | sim_auv.py:41-42 | `k` loop passes give the state that `k` one-step applications give |
| Vehicle.Auv.SendPilotReq | sim_auv.py:77-92 | the pilot request turns and then moves; afterwards the position is the goal, the yaw is the new heading, and the rotate time plus the move time has elapsed |
| Vehicle.Auv.Move | sim_auv.py:96-100 | the clock advances by the move time |
| Vehicle.Auv.Rotate | sim_auv.py:102-106 | the clock advances by the rotate time |
| Msgs.PlanReqStoresArguments | msgs.py:13-15 | reading `target_list` and `target_order` gives back the arguments, not the class-level lists |
| Msgs.PlanFeedbackStoresArguments | msgs.py:25-27 | `target_id` and `target_class` read back the id and classification the message was built with |
| Msgs.NavReqCarriesNoPayload | msgs.py:30-37 | a navigation request sets no instance attribute; its `req` flag always reads `True` |
| Msgs.NavUpdateStoresArguments | msgs.py:46-47 | `pos` reads back the position the update was built with |
| Msgs.ClassListsNeverObserved | msgs.py:10-11 | every class-level list is shadowed by an instance attribute; any attribute a reader finds is the constructor's value or the `req` flag |
| Pipes.Pipe.constructor | pipe_callback.py:11-14 | a new pipe has the given delay, an empty store, no pending requests and nothing in transit |
| Pipes.Pipe.Put | pipe_callback.py:16-21 | `put` starts one latency process due at now + delay and does not wait; the log of values put grows by exactly that value, and nothing else changes |
| Pipes.Pipe.Get | pipe_callback.py:23-24 | `get` takes the oldest stored value if there is one; otherwise the request joins the end of the queue. Either way the work-queue invariant holds and the logs of values delivered and put are unchanged |
| Pipes.Pipe.DeliverNext | pipe_callback.py:16-18 | the oldest latency process stores its value exactly at its due time; the oldest pending request receives it, or it is buffered; the delivered log grows by that value |
| Pipes.DueCount | pipe_callback.py:16-18 | the processes due by `t` are a leading run of those in transit: all before the count are due and the next one is not |
| Pipes.Pipe.Advance | pipe_callback.py:16-18 | advancing to `t` delivers exactly the values due by `t`, oldest first, appending them to the delivered log; everything later stays in transit and is due after `t` |
| Pipes.Pipe.DeliverDue | pipe_callback.py:16-18 | the deliveries of `Advance`, one latency process at a time, until the oldest left is due after `t` |
| Pipes.Receiver.constructor | pipe_callback.py:28-34 | the receiver registers one `get` on the cable and starts with no message received: on an empty store the request joins the end of the queue, otherwise it takes the oldest stored value; values put and in transit are untouched |
| Pipes.Receiver.MsgCallback | pipe_callback.py:36-41 | the callback issues a new `get` before anything else; a request is then queued when the store is empty, or the oldest stored value resolves it and leaves the store; then it records that a message arrived |
| Pipes.Receiver.BeginWork | pipe_callback.py:43-47 | each pass of the receiver's loop issues a new `get` and clears the received flag; the request joins the queue when the store is empty, and otherwise takes the oldest stored value, which leaves the store; no value put or in transit is lost |
| Pipes.LatencyScenario | pipe_callback.py:55-62 | with delay 2, a value put at time 5 by the sender is not in the store at time 6; a `get` at time 7 receives it |
| Pipes.WatchArrival | pipe_callback.py:16-24 | a value due at 7, with nothing stored and nothing queued, is still absent from the store at 6, and a `get` at 7 receives it |
| Pipes.WaitNotDue | pipe_callback.py:16-18 | advancing to 6 leaves a value due at 7 in transit and the store empty |
| Pipes.ReceiveDue | pipe_callback.py:16-24 | advancing to 7 stores the value due then, and the next `get` receives it |
| Pipes.WorkQueueOrder | pipe_callback.py:23-24 | under the pipe invariant, the values handed out, then those stored, then those in transit, are the values put, in put order; the i-th hand-out went to the i-th request; no request is served twice |
| Ovrp.Feasible | ovrp_solver.py:42-81 | the constraint set: the variable bounds, no edge out of the finish and one out of every other point, no edge into the start and one into every other point, and the Miller-Tucker-Zemlin inequality for every pair of distinct points; what it implies is stated by the lemmas below |
| Ovrp.EdgeRaisesLabel | ovrp_solver.py:77-81 | in a feasible selection, an edge i → j forces `u[j] >= u[i] + 1` |
| Ovrp.LabelsWithinSpread | ovrp_solver.py:77-81 | every label other than the start's is at most `u[start] + n - 1` |
| Ovrp.NothingEntersStart | ovrp_solver.py:67-68 | no selected edge enters the start point |
| Ovrp.Succ | ovrp_solver.py:61-64 | every point other than the finish has a selected outgoing edge |
| Ovrp.Pred | ovrp_solver.py:71-74 | every point other than the start has a selected incoming edge |
| Ovrp.SuccUnique | ovrp_solver.py:57-64 | no edge leaves the finish, and every other point has exactly one outgoing edge |
| Ovrp.WalkRaisesLabel | ovrp_solver.py:77-81 | following successors from the start raises the label by at least one per step until the finish |
| Ovrp.WalkMeetsFinish | ovrp_solver.py:57-81 | following successors from the start reaches the finish within n steps, so there are no cycles |
| Ovrp.WalkCovers | ovrp_solver.py:67-81 | every point lies on the walk from the start to the finish, so there are no detached sub-tours |
| Ovrp.WalkLabels | ovrp_solver.py:57-81 | the walk takes exactly n - 1 steps, and the t-th point on it has label `u[start] + t` |
| Ovrp.LabelLocatesPoint | ovrp_solver.py:77-81 | each point's label offset from the start is below n and is its position on the walk |
| Ovrp.LabelsInWindow | ovrp_solver.py:52-81 | all labels lie in `[u[start], u[start] + n)` |
| Ovrp.LabelsDistinct | ovrp_solver.py:52-81 | labels are pairwise distinct |
| Ovrp.EdgesRaiseLabelByOne | ovrp_solver.py:57-81 | a selected edge raises the label by exactly one |
| Ovrp.LabelOrderIsPath | ovrp_solver.py:57-81 | ordering the points by label gives an open path from start to finish that visits every point once along selected edges |
| Ovrp.FeasibleLabelsFormPath | ovrp_solver.py:42-81 | the main theorem: the degree constraints plus Miller-Tucker-Zemlin sub-tour elimination select a single start → finish path through all points, with labels consecutive along it |
| Ovrp.RaisedLabelsStayFeasible | ovrp_solver.py:52-81 | adding a constant to every label keeps every constraint satisfied; the labels need not start at 0 |
| Ovrp.PlacedAsWritten | ovrp_solver.py:102-105 | the route array as the source fills it: numpy's negative wrap-around, and an index error for a label outside `[-n, n)` |
| Ovrp.PlacedIffInRange | ovrp_solver.py:102-105 | placing the first k labels as the source does succeeds exactly when each of them is a valid numpy index in `[-n, n)` |
| Ovrp.RouteAsWritten | ovrp_solver.py:102-105 | the route as the source reads it fails exactly when some label is not a valid numpy index, and otherwise has one entry per point |
| Ovrp.AsWrittenAgreesWhenStartLabelZero | ovrp_solver.py:102-105 | when the start's label is 0, the route extraction as written succeeds and gives the points in label order, the same route as the corrected `Solve`; the two differ only when the start's label is raised |
| Ovrp.AsWrittenFailsWhenStartLabelRaised | ovrp_solver.py:102-105 | for every feasible assignment whose start label is above 0, the route extraction as written fails, since the finish's label is then at least n; with the zero-start lemma, the source's reading succeeds exactly when the start is labelled 0 |
| Ovrp.AsWrittenRouteFailsOnRaisedLabels | ovrp_solver.py:102-105 | with 2 points, edge 0 → 1 and labels (1, 2), every constraint holds, yet the route extraction as written fails |
| Ovrp.ExtractRoute | ovrp_solver.py:102-105 | for distinct labels inside the window, `route[u[k] - base] == k` for every point |
| Ovrp.ExtractedRouteIsLabelOrder | ovrp_solver.py:102-107 | the extracted route is the label order, hence the open start → finish path |
| Ovrp.WithDefaults | ovrp_solver.py:28-32 | the instance keeps the point count, and a defaulted start or finish is always one of its points |
| Ovrp.DefaultsAreFirstAndLast | ovrp_solver.py:28-32 | `start` defaults to the first point and `finish` to the last; given values are kept |
| Ovrp.Solve | ovrp_solver.py:18-109 | on an optimal answer, the route is the open path with each point at its label offset, and the objective is passed back; on a solver error, the error triple comes back |
| Planner.PyIndex | sim_auv_planner.py:60 | Python list indexing: an index in `[-len, len)` names a slot, negative ones counting from the end; any other index raises |
| Planner.Reclassify | sim_auv_planner.py:60 | feedback with an index outside the list raises an IndexError |
| Planner.ReclassifyTouchesOnlyIndex | sim_auv_planner.py:57-60 | feedback sets the classification of exactly the addressed target; its uid, id and position stay; every other entry is unchanged; ids stay equal to indices |
| Planner.UnclassifiedIndices | sim_auv_planner.py:93-96 | the indices the `for` loop appends, in list order, each a valid index of the list and no more of them than entries |
| Planner.UnclassifiedIndicesExact | sim_auv_planner.py:93-96 | the selection holds exactly the indices whose classification is "None", each once, in increasing order |
| Planner.SelectUnclassified | sim_auv_planner.py:93-96 | the loop pairs each selected index with its target, in selection order |
| Planner.BuildPositions | sim_auv_planner.py:99-104 | the vehicle position comes first; the k-th selected target's position is at k + 1; the target list holds the selected targets in order |
| Planner.BuildDistances | sim_auv_planner.py:106-112 | the matrix is n × n, holds the norm of each pairwise difference, and has a zero diagonal |
| Planner.TargetOrder | sim_auv_planner.py:119-121 | the target order has one entry fewer than the route (none for an empty route) |
| Planner.OrderRoundTrip | sim_auv_planner.py:119-121 | for a route starting at the vehicle, putting the vehicle back in front of the target order and adding one to each entry recovers the route |
| Planner.TargetOrderIsPermutation | sim_auv_planner.py:119-121 | if the route visits the points 0..n-1 once each and starts at 0, the target order indexes each of the n - 1 targets exactly once |
| Planner.DeriveTargetOrder | sim_auv_planner.py:119-121 | the loop builds the target order of the route: the route without its first point, each entry minus one |
| Planner.OrderAsWritten | sim_auv_planner.py:114-121 | on a solved route, the planner derives the target order; on the error triple, `len` raises |
| Planner.SolverErrorCrashesPlanner | sim_auv_planner.py:114-121 | with an unclassified target, a solver error stops the planner as written, while the corrected planner publishes no plan |
| Planner.ComputePlan | sim_auv_planner.py:93-127 | a plan is produced exactly when a target is unclassified and the solver succeeds. It lists the unclassified targets in index order, with an order that indexes each exactly once along the solver's path from the vehicle |
| Planner.AuvPlanner.constructor | sim_auv_planner.py:29-43 | the planner subscribes to plan feedback, then to navigation updates: each subscription holds the handle of a new `get`, queued when that pipe's store is empty (one after the other if both are the same pipe) and otherwise served at once with the oldest stored value, which leaves the store; no value put or in transit is lost. It starts at the origin with no navigation, and in debug mode holds the fixture targets |
| Planner.AuvPlanner.Testing | sim_auv_planner.py:45-55 | the i-th fixture point becomes unclassified target i with uid i, so ids are exactly 0..7 |
| Planner.AuvPlanner.HandlePlanFeedback | sim_auv_planner.py:57-60 | the handler re-subscribes first, then reclassifies exactly the addressed target; a bad index raises, leaving the list unchanged. The new `get` queues on an empty store and otherwise takes the oldest stored feedback; the pipe's put log and values in transit are unchanged |
| Planner.AuvPlanner.HandleNavUpdate | sim_auv_planner.py:62-68 | the handler sets `got_nav`, re-subscribes, and takes the reported position. The new `get` queues on an empty store and otherwise takes the oldest stored update; the pipe's put log and values in transit are unchanged |
| Planner.AuvPlanner.Begin | sim_auv_planner.py:80-92 | only the first pass in debug mode has new targets: it clears `got_nav`, requests navigation and waits 1. Every other pass waits the period of 100. The request pipe's put log grows by exactly that one `NavReq`, and its store, queue, served log and clock are unchanged; the subscription handles are kept |
| Planner.AuvPlanner.PlanTargets | sim_auv_planner.py:93-132 | the plan is published exactly when a target is unclassified and the solver succeeds, followed by the computation wait; otherwise the pass ends with the wait of 100. The request pipe's put log grows by exactly the published plan, and its store, queue, served log and clock are unchanged; the subscription handles and `got_nav` are kept |
| Planner.AuvPlanner.FinishPlanning | sim_auv_planner.py:130-132 | after the computation wait, the pass ends with the wait of 100; the subscription handles are kept |
| Planner.AuvPlanner.AtMostOnePlan | sim_auv_planner.py:81-89 | at most one plan is ever published, and none outside debug mode |

## Left out

- Floating-point geometry is left out: the bearing from `atan2`, the degree conversions and yaw normalisation (sim_auv.py:79-87), the Euclidean distance (sim_auv.py:10-11) and numpy norms. The pilot request's turn, distance and new yaw come from an abstract `Geometry` function; the planner's norm is an abstract function that is zero on the zero vector.
- Vehicle.MoveTime and Vehicle.RotateTime divide by exact 2/5 and 3/10. Python's binary `0.4` and `0.3` differ slightly, so a float quotient that lands on a whole number may floor one unit differently.
- Aliasing is not modelled. The vehicle's `target_list` is the caller's list, and the planner's `Target` objects are shared with plan messages. Here both are values: popping or reclassifying does not show through other references.
- SimPy internals are not modelled: the event queue, `process` start-up and same-time ordering. Processes are methods that return their waits; the pipe's clock advances only through `Advance`.
- Receiver: `run`'s `simpy.Interrupt` handler is left out, because nothing interrupts the receiver (the interrupt call in the callback is commented out). The 20-unit wait is the caller's `Advance`.
- Planner.AuvPlanner.PlanTargets: the wait after the computation is the wall-clock time of the computation. It is nondeterministic, so it is a parameter (`computeTime`).
- The planner's process runs `Begin`, `PlanTargets` and `FinishPlanning` in its `pc` order. The model does not tie these segment calls to the waits they return.
- Planner.AuvPlanner.constructor: outside debug mode the source never creates `targets_list`, so a feedback message would raise an AttributeError. Here the list is empty, and the same message raises the IndexError case.
- Planner.AuvPlanner.Valid: it covers only the planner's own fields. Each operation keeps valid the pipe it uses, not the other three.
- The vehicle's inspection only waits and prints. It does not mark the target or send feedback (sim_auv.py:66-71).
- The planner sends its navigation request before looking for unclassified targets. It then waits one time unit and uses whatever position it holds, whether or not `got_nav` was set (sim_auv_planner.py:89-100). The model does the same.
- Ovrp: the Gurobi model building, the objective (the sum of `distance` over selected edges) and optimality are left out. The solver is an oracle; only feasibility is assumed of its answer.
- Ovrp: the planner passes its distance matrix where the solver expects coordinates (sim_auv_planner.py:114 vs ovrp_solver.py:14-15). Because only feasibility is used, this does not affect the model.
- Ovrp.Solve requires n > 0 and start and finish to be points 0 .. n-1. With n = 0 the source reads no variable at all: every dictionary lookup at ovrp_solver.py:41-81 sits inside an empty `range`. It then returns an empty route with the optimiser's objective value; that result is not modelled, and the planner never asks for it (its instance always holds the vehicle). An out-of-range start or finish, with n > 0, makes the source fail with a KeyError at the degree constraints (ovrp_solver.py:58 and 68); that path is not modelled either.
- Ovrp.Solve reads labels as integers. Gurobi reports them as floats, and the source indexes with them directly.
- Debug printing, plotting, the module-level runs and `main` functions are left out. So are the demo files `hello_simpy.py` and `simple_vehicle.py`.
- `AuvExecutor`, `target.py` and `pipe.py` are not part of this model. `Target` is the record used at sim_auv_planner.py:54, 60, 95 and 103, created unclassified. The planner's pipes are modelled by the `Pipe` of pipe_callback.py.

## Findings

| source | as written | input that shows it | evidently intended | confidence | as-written member | corrected member |
|---|---|---|---|---|---|---|
| ovrp_solver.py:104-105 | `route[u[k]] = k` uses the label itself as the position. The constraints fix only label differences (`u >= 0`, `u[i] - u[j] + n·x[i][j] <= n - 1`), so a feasible labelling need not start at 0 | n = 2, edge 0 → 1, labels u = (1, 2): feasible, and `route[2]` is out of range for a route of length 2 | position = label minus the start's label, `route[u[k] - u[start]] = k` | medium, not executed | Ovrp.AsWrittenRouteFailsOnRaisedLabels | Ovrp.Solve |
| sim_auv_planner.py:114-121 | on a solver error `ovrp_solver` returns `(0, 0, 0)`. The planner then evaluates `len(tsp_route)` on the integer 0 and stops with a TypeError | any pass with an unclassified target in which the solver raises a `GurobiError` | skip the plan for that pass and keep the periodic loop going | medium, not executed | Planner.SolverErrorCrashesPlanner | Planner.AuvPlanner.PlanTargets |

=== FILE: basics.dfy ===
/** Small shared datatypes. */
module Basics {

  /** An optional value: Python's `None` or a value. */
  datatype Option<+T> = None | Some(value: T)
}

=== FILE: msgs.dfy ===
/**
 * The four messages exchanged between the planner and the vehicle, as one closed datatype.
 *
 * Each message class in the source declares class-level attributes (some of them shared
 * mutable lists) and an `__init__` that assigns instance attributes. Python resolves an
 * attribute on the instance first and on the class second; `GetAttr` models that lookup so
 * that the lemmas below can state which value a reader actually sees.
 */
module Msgs {
  import opened Basics
  import opened Targets

  datatype Message =
    | PlanReq(targetList: seq<Target>, targetOrder: seq<int>)
    | PlanFeedback(targetId: int, targetClass: string)
    | NavReq
    | NavUpdate(pos: Pos)

  /** An attribute value as a Python reader sees it. */
  datatype Value =
    | TargetsV(targets: seq<Target>)
    | IntsV(ints: seq<int>)
    | IntV(i: int)
    | StrV(s: string)
    | BoolV(b: bool)
    | PosV(p: Pos)

  /** Whether the value is a Python list (and so, at class level, shared by every instance). */
  predicate IsList(v: Value) {
    v.TargetsV? || v.IntsV? || v.PosV?
  }

  /** The class-level attributes of the message's class. */
  function ClassAttrs(m: Message): map<string, Value> {
    match m
    case PlanReq(_, _) => map["target_list" := TargetsV([]), "target_order" := IntsV([])]
    case PlanFeedback(_, _) => map["target_id" := IntV(0), "target_class" := StrV("")]
    case NavReq => map["req" := BoolV(true)]
    case NavUpdate(_) => map["pos" := PosV(Origin)]
  }

  /** The instance attributes that the class's `__init__` assigns. */
  function InstanceAttrs(m: Message): map<string, Value> {
    match m
    case PlanReq(targets, order) => map["target_list" := TargetsV(targets), "target_order" := IntsV(order)]
    case PlanFeedback(id, cls) => map["target_id" := IntV(id), "target_class" := StrV(cls)]
    case NavReq => map[]
    case NavUpdate(pos) => map["pos" := PosV(pos)]
  }

  /** Python attribute lookup: the instance dictionary first, then the class. */
  function GetAttr(m: Message, name: string): Option<Value> {
    var inst := InstanceAttrs(m);
    var cls := ClassAttrs(m);
    if name in inst then Some(inst[name])
    else if name in cls then Some(cls[name])
    else None
  }

  /** A plan request hands back exactly the targets and the order it was built with. */
  lemma PlanReqStoresArguments(targets: seq<Target>, order: seq<int>)
    ensures GetAttr(PlanReq(targets, order), "target_list") == Some(TargetsV(targets))
    ensures GetAttr(PlanReq(targets, order), "target_order") == Some(IntsV(order))
  {
  }

  /** A feedback message exposes its id as `target_id` and its classification as `target_class`. */
  lemma PlanFeedbackStoresArguments(id: int, cls: string)
    ensures GetAttr(PlanFeedback(id, cls), "target_id") == Some(IntV(id))
    ensures GetAttr(PlanFeedback(id, cls), "target_class") == Some(StrV(cls))
  {
  }

  /** A navigation request carries no instance payload; its `req` is always the class's `True`. */
  lemma NavReqCarriesNoPayload()
    ensures InstanceAttrs(NavReq) == map[]
    ensures GetAttr(NavReq, "req") == Some(BoolV(true))
  {
  }

  /** A navigation update exposes exactly the position it was built with. */
  lemma NavUpdateStoresArguments(pos: Pos)
    ensures GetAttr(NavUpdate(pos), "pos") == Some(PosV(pos))
  {
  }

  /**
   * No class-level list is ever observed through an instance: every class attribute holding a
   * list is shadowed by an instance attribute, and every attribute a reader finds is either
   * assigned by the constructor or the non-list `req` flag.
   */
  lemma ClassListsNeverObserved(m: Message, name: string)
    ensures name in ClassAttrs(m) && IsList(ClassAttrs(m)[name]) ==> name in InstanceAttrs(m)
    ensures GetAttr(m, name).Some? ==>
              (name in InstanceAttrs(m) && GetAttr(m, name).value == InstanceAttrs(m)[name])
              || (m.NavReq? && name == "req" && GetAttr(m, name) == Some(BoolV(true)))
  {
  }
}

=== FILE: ovrp.dfy ===
/**
 * The open vehicle routing model built by `ovrp_solver` and the route read back from it.
 *
 * The optimiser itself is an oracle: it either reports an assignment of the binary edge
 * variables `x[i][j]` and the integer labels `u[i]` that satisfies every constraint the
 * function adds, together with the objective value, or it fails. `Feasible` is that
 * constraint set; `FeasibleLabelsFormPath` proves that any such assignment is one
 * start-to-finish path through every point, with labels counting up by one along it.
 */
module Ovrp {
  import opened Basics

  /** The size of the problem and its fixed end points. */
  datatype Instance = Instance(n: nat, start: nat, finish: nat)

  /** A solver assignment: `x[i][j]` selects the edge i -> j, `u[i]` is point i's label. */
  datatype Assignment = Assignment(x: seq<seq<bool>>, u: seq<int>)

  /** The number of selected entries: the value of a `quicksum` over binary variables. */
  function Ones(s: seq<bool>): nat {
    if s == [] then 0 else (if s[0] then 1 else 0) + Ones(s[1..])
  }

  /** The index of the first selected entry. */
  function FirstTrue(s: seq<bool>): (k: nat)
    requires Ones(s) > 0
    ensures k < |s| && s[k]
  {
    if s[0] then 0 else 1 + FirstTrue(s[1..])
  }

  lemma {:induction false} OnesZero(s: seq<bool>, k: nat)
    requires Ones(s) == 0 && k < |s|
    ensures !s[k]
  {
    if k > 0 {
      OnesZero(s[1..], k - 1);
    }
  }

  lemma {:induction false} OnesOneUnique(s: seq<bool>, i: nat, j: nat)
    requires Ones(s) == 1 && i < |s| && j < |s| && s[i] && s[j]
    ensures i == j
  {
    if i == 0 && j == 0 {
    } else if s[0] {
      if i > 0 {
        OnesZero(s[1..], i - 1);
      } else {
        OnesZero(s[1..], j - 1);
      }
    } else {
      OnesOneUnique(s[1..], i - 1, j - 1);
    }
  }

  lemma {:induction false} OnesPositive(s: seq<bool>, k: nat)
    requires k < |s| && s[k]
    ensures Ones(s) > 0
  {
    if k > 0 {
      OnesPositive(s[1..], k - 1);
    }
  }

  predicate Square(x: seq<seq<bool>>, n: nat) {
    |x| == n && forall i :: 0 <= i < n ==> |x[i]| == n
  }

  /** The variables `x[0][j] .. x[n-1][j]` of the edges entering `j`. */
  function Column(x: seq<seq<bool>>, n: nat, j: nat): (c: seq<bool>)
    requires Square(x, n) && j < n
    ensures |c| == n && forall i :: 0 <= i < n ==> c[i] == x[i][j]
  {
    seq(n, i requires 0 <= i < n => x[i][j])
  }

  function Bin(b: bool): int {
    if b then 1 else 0
  }

  /** The variable bounds of point `i`: its self-edge has upper bound 0, its label lower bound 0. */
  predicate Bounds(p: Instance, a: Assignment, i: nat)
    requires Square(a.x, p.n) && |a.u| == p.n && i < p.n
  {
    !a.x[i][i] && a.u[i] >= 0
  }

  /** The out-degree constraint of point `i`: none from `finish`, exactly one from any other point. */
  predicate OutDegree(p: Instance, a: Assignment, i: nat)
    requires Square(a.x, p.n) && i < p.n
  {
    Ones(a.x[i]) == if i == p.finish then 0 else 1
  }

  /** The in-degree constraint of point `j`: none into `start`, exactly one into any other point. */
  predicate InDegree(p: Instance, a: Assignment, j: nat)
    requires Square(a.x, p.n) && j < p.n
  {
    Ones(Column(a.x, p.n, j)) == if j == p.start then 0 else 1
  }

  /** The Miller-Tucker-Zemlin sub-tour elimination constraint for the pair (i, j). */
  predicate Mtz(p: Instance, a: Assignment, i: nat, j: nat)
    requires Square(a.x, p.n) && |a.u| == p.n && i < p.n && j < p.n
  {
    a.u[i] - a.u[j] + p.n * Bin(a.x[i][j]) <= p.n - 1
  }

  /**
   * Every constraint the solver is given: the variable bounds, nothing leaves `finish`, one
   * edge leaves every other point, nothing enters `start`, one edge enters every other point,
   * and `u[i] - u[j] + n * x[i][j] <= n - 1` for every pair of distinct points.
   */
  predicate Feasible(p: Instance, a: Assignment) {
    && Square(a.x, p.n) && |a.u| == p.n && p.start < p.n && p.finish < p.n
    && (forall i :: 0 <= i < p.n ==> Bounds(p, a, i))
    && (forall i :: 0 <= i < p.n ==> OutDegree(p, a, i))
    && (forall j :: 0 <= j < p.n ==> InDegree(p, a, j))
    && (forall i, j :: 0 <= i < p.n && 0 <= j < p.n && i != j ==> Mtz(p, a, i, j))
  }

  /** `route` visits every point once, starting at `start`, ending at `finish`, along selected edges. */
  predicate OpenPath(route: seq<nat>, p: Instance, x: seq<seq<bool>>)
    requires Square(x, p.n)
  {
    && |route| == p.n && p.n > 0
    && route[0] == p.start && route[p.n - 1] == p.finish
    && (forall r :: 0 <= r < p.n ==> route[r] < p.n)
    && (forall r, q :: 0 <= r < q < p.n ==> route[r] != route[q])
    && (forall r, q :: 0 <= r < p.n - 1 && q == r + 1 ==> route[r] < p.n && route[q] < p.n && x[route[r]][route[q]])
  }

  // ---- consequences of single constraints ----

  /** A selected edge raises the label by at least one. */
  lemma EdgeRaisesLabel(p: Instance, a: Assignment, i: nat, j: nat)
    requires Feasible(p, a)
    requires i < p.n && j < p.n && a.x[i][j]
    ensures a.u[j] >= a.u[i] + 1
  {
    assert Bounds(p, a, i);
    assert Mtz(p, a, i, j);
  }

  /** No label exceeds the start's by more than n - 1. */
  lemma LabelsWithinSpread(p: Instance, a: Assignment, k: nat)
    requires Feasible(p, a)
    requires k < p.n && k != p.start
    ensures a.u[k] <= a.u[p.start] + p.n - 1
  {
    assert InDegree(p, a, p.start);
    OnesZero(Column(a.x, p.n, p.start), k);
    assert Mtz(p, a, k, p.start);
  }

  lemma NothingEntersStart(p: Instance, a: Assignment, i: nat)
    requires Feasible(p, a)
    requires i < p.n
    ensures !a.x[i][p.start]
  {
    assert InDegree(p, a, p.start);
    OnesZero(Column(a.x, p.n, p.start), i);
  }

  /** The one point an edge from `i` leads to. */
  function Succ(p: Instance, a: Assignment, i: nat): (j: nat)
    requires Feasible(p, a)
    requires i < p.n && i != p.finish
    ensures j < p.n && a.x[i][j]
  {
    assert OutDegree(p, a, i);
    FirstTrue(a.x[i])
  }

  /** The one point an edge into `j` comes from. */
  function Pred(p: Instance, a: Assignment, j: nat): (i: nat)
    requires Feasible(p, a)
    requires j < p.n && j != p.start
    ensures i < p.n && a.x[i][j]
  {
    assert InDegree(p, a, j);
    FirstTrue(Column(a.x, p.n, j))
  }

  lemma SuccUnique(p: Instance, a: Assignment, i: nat, j: nat)
    requires Feasible(p, a)
    requires i < p.n && j < p.n && a.x[i][j]
    ensures i != p.finish && Succ(p, a, i) == j
  {
    OnesPositive(a.x[i], j);
    assert OutDegree(p, a, i);
    OnesOneUnique(a.x[i], Succ(p, a, i), j);
  }

  // ---- the walk from start ----

  /** Follow selected edges from `start` for `t` steps (staying put once at `finish`). */
  ghost function Walk(p: Instance, a: Assignment, t: nat): (w: nat)
    requires Feasible(p, a)
    ensures w < p.n
  {
    if t == 0 then p.start
    else
      var v := Walk(p, a, t - 1);
      if v == p.finish then p.finish else Succ(p, a, v)
  }

  /** The first step at or after `t` (and before n) at which the walk is at `finish`, or n if none. */
  ghost function FirstFinish(p: Instance, a: Assignment, t: nat): (m: nat)
    requires Feasible(p, a)
    ensures t <= m || m == p.n
    ensures m <= p.n
    ensures m < p.n ==> Walk(p, a, m) == p.finish
    ensures forall t' :: t <= t' < m ==> Walk(p, a, t') != p.finish
    decreases p.n - t
  {
    if t >= p.n then p.n
    else if Walk(p, a, t) == p.finish then t
    else FirstFinish(p, a, t + 1)
  }

  /** Before reaching `finish`, each step raises the label by at least one. */
  lemma {:induction false} WalkRaisesLabel(p: Instance, a: Assignment, t1: nat, t2: nat)
    requires Feasible(p, a)
    requires t1 <= t2
    requires forall t :: 0 <= t < t2 ==> Walk(p, a, t) != p.finish
    ensures a.u[Walk(p, a, t2)] >= a.u[Walk(p, a, t1)] + (t2 - t1)
  {
    if t1 < t2 {
      WalkRaisesLabel(p, a, t1, t2 - 1);
      var v := Walk(p, a, t2 - 1);
      EdgeRaisesLabel(p, a, v, Succ(p, a, v));
    }
  }

  /** The walk meets `finish` within n - 1 steps. */
  lemma WalkMeetsFinish(p: Instance, a: Assignment)
    requires Feasible(p, a)
    ensures FirstFinish(p, a, 0) < p.n
  {
    if FirstFinish(p, a, 0) == p.n {
      // n steps without meeting `finish` would raise the label by n, beyond the spread.
      WalkRaisesLabel(p, a, 0, p.n);
      NothingEntersStart(p, a, Walk(p, a, p.n - 1));
      LabelsWithinSpread(p, a, Walk(p, a, p.n));
      assert false;
    }
  }

  /** Every point lies on the walk no later than the step `m` at which it meets `finish`. */
  lemma {:induction false} WalkCovers(p: Instance, a: Assignment, v: nat)
    requires Feasible(p, a)
    requires FirstFinish(p, a, 0) < p.n
    requires v < p.n
    ensures exists t :: 0 <= t <= FirstFinish(p, a, 0) && Walk(p, a, t) == v
    decreases a.u[v]
  {
    var m := FirstFinish(p, a, 0);
    if v != p.start {
      var q := Pred(p, a, v);
      assert Bounds(p, a, q);
      EdgeRaisesLabel(p, a, q, v);
      WalkCovers(p, a, q);
      var t :| 0 <= t <= m && Walk(p, a, t) == q;
      SuccUnique(p, a, q, v);
      assert Walk(p, a, t + 1) == v;
    } else {
      assert Walk(p, a, 0) == v;
    }
  }

  /** The first `m + 1` points of the walk. */
  ghost function WalkPrefix(p: Instance, a: Assignment, m: nat): (w: seq<nat>)
    requires Feasible(p, a)
    ensures |w| == m + 1
    ensures forall t :: 0 <= t <= m ==> w[t] == Walk(p, a, t)
  {
    if m == 0 then [p.start] else WalkPrefix(p, a, m - 1) + [Walk(p, a, m)]
  }

  /** A sequence holding every number below n has at least n entries. */
  lemma {:induction false} HoldingRangeIsLong(s: seq<nat>, n: nat)
    requires forall v :: 0 <= v < n ==> v in s
    ensures |s| >= n
  {
    if n > 0 {
      assert n - 1 in s;
      var k :| 0 <= k < |s| && s[k] == n - 1;
      var rest := s[..k] + s[k + 1..];
      forall v | 0 <= v < n - 1
        ensures v in rest
      {
        assert v in s;
        var i :| 0 <= i < |s| && s[i] == v;
        if i < k {
          assert rest[i] == v;
        } else {
          assert rest[i - 1] == v;
        }
      }
      HoldingRangeIsLong(rest, n - 1);
    }
  }

  /** The walk takes exactly n - 1 steps and the label after t steps is the start's plus t. */
  lemma WalkLabels(p: Instance, a: Assignment)
    requires Feasible(p, a)
    ensures FirstFinish(p, a, 0) == p.n - 1
    ensures forall t :: 0 <= t < p.n ==> a.u[Walk(p, a, t)] == a.u[p.start] + t
  {
    WalkMeetsFinish(p, a);
    var m := FirstFinish(p, a, 0);
    var w := WalkPrefix(p, a, m);
    forall v | 0 <= v < p.n
      ensures v in w
    {
      WalkCovers(p, a, v);
      var t :| 0 <= t <= m && Walk(p, a, t) == v;
      assert w[t] == v;
    }
    HoldingRangeIsLong(w, p.n);
    WalkRaisesLabel(p, a, 0, m);
    if p.finish != p.start {
      LabelsWithinSpread(p, a, p.finish);
    }
    forall t | 0 <= t < p.n
      ensures a.u[Walk(p, a, t)] == a.u[p.start] + t
    {
      WalkRaisesLabel(p, a, 0, t);
      WalkRaisesLabel(p, a, t, m);
    }
  }

  /** Every point is the one the walk reaches after (its label minus the start's) steps. */
  lemma LabelLocatesPoint(p: Instance, a: Assignment, v: nat)
    requires Feasible(p, a)
    requires v < p.n
    ensures 0 <= a.u[v] - a.u[p.start] < p.n
    ensures Walk(p, a, a.u[v] - a.u[p.start]) == v
  {
    WalkLabels(p, a);
    WalkCovers(p, a, v);
    var t :| 0 <= t <= p.n - 1 && Walk(p, a, t) == v;
  }

  /** The points in label order. */
  ghost function LabelOrder(p: Instance, a: Assignment): (route: seq<nat>)
    requires Feasible(p, a)
    ensures |route| == p.n
  {
    WalkPrefix(p, a, p.n - 1)
  }

  // ---- the theorem ----

  lemma LabelsInWindow(p: Instance, a: Assignment)
    requires Feasible(p, a)
    ensures forall k :: 0 <= k < p.n ==> a.u[p.start] <= a.u[k] < a.u[p.start] + p.n
  {
    forall k | 0 <= k < p.n
      ensures a.u[p.start] <= a.u[k] < a.u[p.start] + p.n
    {
      LabelLocatesPoint(p, a, k);
    }
  }

  lemma LabelsDistinct(p: Instance, a: Assignment)
    requires Feasible(p, a)
    ensures forall i, j :: 0 <= i < p.n && 0 <= j < p.n && a.u[i] == a.u[j] ==> i == j
  {
    forall i, j | 0 <= i < p.n && 0 <= j < p.n && a.u[i] == a.u[j]
      ensures i == j
    {
      LabelLocatesPoint(p, a, i);
      LabelLocatesPoint(p, a, j);
    }
  }

  lemma EdgesRaiseLabelByOne(p: Instance, a: Assignment)
    requires Feasible(p, a)
    ensures forall i, j :: 0 <= i < p.n && 0 <= j < p.n && a.x[i][j] ==> a.u[j] == a.u[i] + 1
  {
    forall i, j | 0 <= i < p.n && 0 <= j < p.n && a.x[i][j]
      ensures a.u[j] == a.u[i] + 1
    {
      SuccUnique(p, a, i, j);
      LabelLocatesPoint(p, a, i);
      WalkLabels(p, a);
      var t := a.u[i] - a.u[p.start];
      assert Walk(p, a, t + 1) == j;
    }
  }

  lemma LabelOrderIsPath(p: Instance, a: Assignment)
    requires Feasible(p, a)
    ensures a.u[p.finish] == a.u[p.start] + p.n - 1
    ensures forall r :: 0 <= r < p.n ==> a.u[LabelOrder(p, a)[r]] == a.u[p.start] + r
    ensures OpenPath(LabelOrder(p, a), p, a.x)
  {
    WalkLabels(p, a);
    var route := LabelOrder(p, a);
    assert Walk(p, a, p.n - 1) == p.finish;
    forall r, q | 0 <= r < q < p.n
      ensures route[r] != route[q]
    {
      assert a.u[route[r]] < a.u[route[q]];
    }
    forall r, q | 0 <= r < p.n - 1 && q == r + 1
      ensures a.x[route[r]][route[q]]
    {
      assert Walk(p, a, r) != p.finish;
    }
  }

  /**
   * In every feasible assignment the labels, less the start's label, number the points
   * 0 .. n-1 without repeats; every selected edge raises the label by exactly one; `finish`
   * carries the highest label; and the points in label order form one path from `start` to
   * `finish` through every point along selected edges, so no sub-tour survives.
   */
  lemma FeasibleLabelsFormPath(p: Instance, a: Assignment)
    requires Feasible(p, a)
    ensures forall k :: 0 <= k < p.n ==> a.u[p.start] <= a.u[k] < a.u[p.start] + p.n
    ensures forall i, j :: 0 <= i < p.n && 0 <= j < p.n && a.u[i] == a.u[j] ==> i == j
    ensures forall i, j :: 0 <= i < p.n && 0 <= j < p.n && a.x[i][j] ==> a.u[j] == a.u[i] + 1
    ensures a.u[p.finish] == a.u[p.start] + p.n - 1
    ensures forall r :: 0 <= r < p.n ==> a.u[LabelOrder(p, a)[r]] == a.u[p.start] + r
    ensures OpenPath(LabelOrder(p, a), p, a.x)
  {
    LabelsInWindow(p, a);
    LabelsDistinct(p, a);
    EdgesRaiseLabelByOne(p, a);
    LabelOrderIsPath(p, a);
  }

  // ---- shifted labels ----

  function Shift(u: seq<int>, c: int): (v: seq<int>)
    ensures |v| == |u| && forall k :: 0 <= k < |u| ==> v[k] == u[k] + c
  {
    seq(|u|, k requires 0 <= k < |u| => u[k] + c)
  }

  /** The constraints fix only differences of labels: raising every label keeps an assignment feasible. */
  lemma RaisedLabelsStayFeasible(p: Instance, a: Assignment, c: nat)
    requires Feasible(p, a)
    ensures Feasible(p, a.(u := Shift(a.u, c)))
  {
    var b := a.(u := Shift(a.u, c));
    forall i | 0 <= i < p.n
      ensures Bounds(p, b, i) && OutDegree(p, b, i) && InDegree(p, b, i)
    {
      assert Bounds(p, a, i) && OutDegree(p, a, i) && InDegree(p, a, i);
    }
    forall i, j | 0 <= i < p.n && 0 <= j < p.n && i != j
      ensures Mtz(p, b, i, j)
    {
      assert Mtz(p, a, i, j);
    }
  }

  // ---- reading the route back ----

  /**
   * The route as the source reads it: `route = zeros(n)`, then `route[u[k]] = k` for every k,
   * with numpy's indexing (a label in -n .. -1 counts from the end). None stands for the
   * IndexError raised by a label outside -n .. n-1.
   */
  function PlacedAsWritten(u: seq<int>, k: nat): (r: Option<seq<int>>)
    requires k <= |u|
    ensures r.Some? ==> |r.value| == |u|
  {
    if k == 0 then Some(seq(|u|, _ => 0))
    else
      match PlacedAsWritten(u, k - 1)
      case None => None
      case Some(route) =>
        var v := u[k - 1];
        if 0 <= v < |u| then Some(route[v := k - 1])
        else if -|u| <= v < 0 then Some(route[v + |u| := k - 1])
        else None
  }

  /** Placing the first `k` labels succeeds exactly when each of them is a valid numpy index. */
  lemma {:induction false} PlacedIffInRange(u: seq<int>, k: nat)
    requires k <= |u|
    ensures PlacedAsWritten(u, k).Some? <==> forall j :: 0 <= j < k ==> -|u| <= u[j] < |u|
  {
    if k > 0 {
      PlacedIffInRange(u, k - 1);
    }
  }

  /** The whole route as the source reads it; it fails exactly when some label is not a valid index. */
  function RouteAsWritten(u: seq<int>): (r: Option<seq<int>>)
    ensures r.Some? <==> forall j :: 0 <= j < |u| ==> -|u| <= u[j] < |u|
    ensures r.Some? ==> |r.value| == |u|
  {
    PlacedIffInRange(u, |u|);
    PlacedAsWritten(u, |u|)
  }

  /**
   * The source's reading fails on a feasible assignment: with two points, the single edge
   * 0 -> 1 and labels (1, 2), every constraint holds, yet label 2 is past the end of the route.
   */
  lemma AsWrittenRouteFailsOnRaisedLabels()
    ensures Feasible(Instance(2, 0, 1), Assignment([[false, true], [false, false]], [1, 2]))
    ensures RouteAsWritten([1, 2]) == None
  {
    var p := Instance(2, 0, 1);
    var a := Assignment([[false, true], [false, false]], [1, 2]);
    assert a.x[0] == [false, true] && a.x[1] == [false, false];
    assert Ones([false, false]) == 0 && Ones([false, true]) == 1;
    assert Column(a.x, 2, 0) == [false, false];
    assert Column(a.x, 2, 1) == [true, false];
    assert Ones([true, false]) == 1;
    assert forall i :: 0 <= i < 2 ==> Bounds(p, a, i) && OutDegree(p, a, i) && InDegree(p, a, i);
    assert Mtz(p, a, 0, 1) && Mtz(p, a, 1, 0);
    assert seq(2, _ => 0) == [0, 0];
    assert PlacedAsWritten([1, 2], 0) == Some([0, 0]);
    assert [0, 0][1 := 0] == [0, 0];
    assert PlacedAsWritten([1, 2], 1) == Some([0, 0]);
    assert PlacedAsWritten([1, 2], 2) == None;
  }

  /** Distinct labels within 0 .. n-1 are placed without error, each point at its own label. */
  lemma {:induction false} PlacedInRange(u: seq<int>, k: nat)
    requires k <= |u|
    requires forall j :: 0 <= j < |u| ==> 0 <= u[j] < |u|
    requires forall i, j :: 0 <= i < |u| && 0 <= j < |u| && u[i] == u[j] ==> i == j
    ensures PlacedAsWritten(u, k).Some?
    ensures forall j :: 0 <= j < k ==> PlacedAsWritten(u, k).value[u[j]] == j
  {
    if k > 0 {
      PlacedInRange(u, k - 1);
    }
  }

  /**
   * In the normal case, where the optimiser labels the start 0, the source's reading succeeds
   * and gives the points in label order: the same route as the corrected reading of `Solve`.
   * The two differ only when the start's label is raised.
   */
  lemma AsWrittenAgreesWhenStartLabelZero(p: Instance, a: Assignment)
    requires Feasible(p, a) && a.u[p.start] == 0
    ensures RouteAsWritten(a.u).Some?
    ensures forall r :: 0 <= r < p.n ==> RouteAsWritten(a.u).value[r] == LabelOrder(p, a)[r]
  {
    FeasibleLabelsFormPath(p, a);
    PlacedInRange(a.u, p.n);
    var route := RouteAsWritten(a.u).value;
    forall r | 0 <= r < p.n
      ensures route[r] == LabelOrder(p, a)[r]
    {
      var v := LabelOrder(p, a)[r];
      assert a.u[v] == r;
    }
  }

  /**
   * Whenever the optimiser raises the start's label above 0, the source's reading fails: the
   * finish then carries label `u[start] + n - 1 >= n`, past the end of the route.
   */
  lemma AsWrittenFailsWhenStartLabelRaised(p: Instance, a: Assignment)
    requires Feasible(p, a) && a.u[p.start] > 0
    ensures RouteAsWritten(a.u) == None
  {
    FeasibleLabelsFormPath(p, a);
    assert !(-(p.n as int) <= a.u[p.finish] < p.n);
  }

  /**
   * The reading with the start's label taken as position 0: position `u[k] - base` receives
   * point k. Labels that are distinct and lie in base .. base+n-1 fill every position once.
   */
  method ExtractRoute(n: nat, u: seq<int>, base: int) returns (route: seq<nat>)
    requires |u| == n
    requires forall k :: 0 <= k < n ==> 0 <= u[k] - base < n
    requires forall i, j :: 0 <= i < n && 0 <= j < n && u[i] == u[j] ==> i == j
    ensures |route| == n
    ensures forall k :: 0 <= k < n ==> route[u[k] - base] == k
  {
    var placed := new nat[n](_ => 0);
    for k := 0 to n
      invariant forall j :: 0 <= j < k ==> placed[u[j] - base] == j
    {
      placed[u[k] - base] := k;
    }
    route := placed[..];
  }

  /** Placing each point at its label's position reproduces the points in label order. */
  lemma ExtractedRouteIsLabelOrder(p: Instance, a: Assignment, route: seq<nat>)
    requires Feasible(p, a)
    requires |route| == p.n
    requires forall k :: 0 <= k < p.n ==> 0 <= a.u[k] - a.u[p.start] < p.n
    requires forall k :: 0 <= k < p.n ==> route[a.u[k] - a.u[p.start]] == k
    ensures route == LabelOrder(p, a)
    ensures OpenPath(route, p, a.x)
  {
    LabelOrderIsPath(p, a);
    var order := LabelOrder(p, a);
    forall q | 0 <= q < p.n
      ensures route[q] == order[q]
    {
      assert route[a.u[order[q]] - a.u[p.start]] == order[q];
    }
  }

  // ---- the solver call ----

  /** What the optimiser reports: an optimal assignment with its objective value, or an error. */
  datatype Answer = Optimal(assignment: Assignment, cost: real) | SolverError

  /** `(route, objective, model)` on success, or the `(0, 0, 0)` triple returned on a solver error. */
  datatype SolveResult = Solved(route: seq<nat>, cost: real) | ErrorTriple

  /** The instance with `start` defaulting to the first point and `finish` to the last. */
  function WithDefaults(n: nat, start: Option<nat>, finish: Option<nat>): (p: Instance)
    requires n > 0
    ensures p.n == n
    ensures start.None? ==> p.start < n
    ensures finish.None? ==> p.finish < n
  {
    Instance(n, if start.None? then 0 else start.value, if finish.None? then n - 1 else finish.value)
  }

  lemma DefaultsAreFirstAndLast(n: nat, start: Option<nat>, finish: Option<nat>)
    requires n > 0
    ensures start.None? ==> WithDefaults(n, start, finish).start == 0
    ensures finish.None? ==> WithDefaults(n, start, finish).finish == n - 1
    ensures start.Some? ==> WithDefaults(n, start, finish).start == start.value
    ensures finish.Some? ==> WithDefaults(n, start, finish).finish == finish.value
  {
  }

  /**
   * `ovrp_solver`: on an optimal answer the route is one open path from `start` to `finish`
   * through every point along the selected edges, each point k at position `u[k] - u[start]`;
   * on a solver error the error triple comes back.
   */
  method Solve(n: nat, start: Option<nat>, finish: Option<nat>, answer: Answer) returns (r: SolveResult)
    requires n > 0
    requires WithDefaults(n, start, finish).start < n && WithDefaults(n, start, finish).finish < n
    requires answer.Optimal? ==> Feasible(WithDefaults(n, start, finish), answer.assignment)
    ensures answer.SolverError? <==> r == ErrorTriple
    ensures answer.Optimal? ==> r.Solved? && r.cost == answer.cost
    ensures answer.Optimal? ==> OpenPath(r.route, WithDefaults(n, start, finish), answer.assignment.x)
    ensures answer.Optimal? ==>
              var u := answer.assignment.u;
              forall k :: 0 <= k < n ==> u[WithDefaults(n, start, finish).start] <= u[k] < u[WithDefaults(n, start, finish).start] + n
    ensures answer.Optimal? ==>
              var u := answer.assignment.u;
              forall k :: 0 <= k < n ==> r.route[u[k] - u[WithDefaults(n, start, finish).start]] == k
  {
    var p := WithDefaults(n, start, finish);
    match answer
    case SolverError =>
      r := ErrorTriple;
    case Optimal(a, cost) =>
      LabelsInWindow(p, a);
      LabelsDistinct(p, a);
      var route := ExtractRoute(n, a.u, a.u[p.start]);
      ExtractedRouteIsLabelOrder(p, a, route);
      r := Solved(route, cost);
  }
}

=== FILE: pipes.dfy ===
/**
 * A delayed pipe: `put` starts a latency process that places the value in a FIFO store
 * exactly `delay` time units later, and `get` takes the oldest stored value or, when the
 * store is empty, queues a request that the next arriving value resolves.
 *
 * The store behaves as a work queue: each value is handed to exactly one `get`. Values and
 * requests are never both waiting, because an arriving value goes straight to the oldest
 * queued request. A ghost log records every resolved request; from it and the buffer follow
 * the values delivered and the values put, in order.
 */
module Pipes {
  import opened Basics

  /** A latency process still running: it stores `value` at time `ready`. */
  datatype Pending<V> = Pending(ready: nat, value: V)

  /** The request handles 0 .. n-1, in issue order. */
  function Upto(n: nat): (r: seq<nat>)
    ensures |r| == n && forall i :: 0 <= i < n ==> r[i] == i
  {
    if n == 0 then [] else Upto(n - 1) + [n - 1]
  }

  /** The values carried by a run of latency processes, in order. */
  function Values<V>(ps: seq<Pending<V>>): (r: seq<V>)
    ensures |r| == |ps|
  {
    if ps == [] then [] else [ps[0].value] + Values(ps[1..])
  }

  lemma {:induction false} ValuesSnoc<V>(ps: seq<Pending<V>>, p: Pending<V>)
    ensures Values(ps + [p]) == Values(ps) + [p.value]
  {
    if ps != [] {
      assert (ps + [p])[1..] == ps[1..] + [p];
      ValuesSnoc(ps[1..], p);
    }
  }

  /** How many of the oldest latency processes are due by time `t`: the leading run whose due time has come. */
  function DueCount<V>(ps: seq<Pending<V>>, t: nat): (n: nat)
    ensures n <= |ps|
    ensures forall i :: 0 <= i < n ==> ps[i].ready <= t
    ensures n < |ps| ==> t < ps[n].ready
  {
    if ps == [] || t < ps[0].ready then 0 else 1 + DueCount(ps[1..], t)
  }

  /** One more delivery, of the next due process, extends the delivered log by its value. */
  lemma DeliveredStep<V>(start: seq<Pending<V>>, k: nat, t: nat, delivered0: seq<V>, before: seq<V>, after: seq<V>)
    requires k < |start| && start[k].ready <= t
    requires before == delivered0 + Values(start[..k]) && after == before + [start[k].value]
    ensures after == delivered0 + Values(start[..k + 1])
    ensures start[k..][1..] == start[k + 1..]
    ensures DueCount(start[k..], t) == 1 + DueCount(start[k + 1..], t)
  {
    assert start[..k + 1] == start[..k] + [start[k]];
    ValuesSnoc(start[..k], start[k]);
  }

  /**
   * The pipe invariant over the pipe's state. The latency processes are due in order, none in
   * the past and none more than one delay ahead. Values and requests never wait together. The
   * requests served, followed by those waiting, are every request in issue order, and each
   * served request received one value.
   */
  ghost predicate PipeInv<V>(delay: nat, clock: nat, inFlight: seq<Pending<V>>, items: seq<V>, waiting: seq<nat>,
                             nextGetter: nat, served: seq<V>, servedTo: seq<nat>)
  {
    && (forall i :: 0 <= i < |inFlight| ==> clock <= inFlight[i].ready <= clock + delay)
    && (forall i, j :: 0 <= i < j < |inFlight| ==> inFlight[i].ready <= inFlight[j].ready)
    && (items == [] || waiting == [])
    && |servedTo| == |served|
    && servedTo + waiting == Upto(nextGetter)
  }

  /** Delivering the oldest value in transit keeps the invariant, whether a request takes it or the store does. */
  lemma DeliverKeepsInv<V>(delay: nat, clock: nat, inFlight: seq<Pending<V>>, items: seq<V>, waiting: seq<nat>,
                           nextGetter: nat, served: seq<V>, servedTo: seq<nat>)
    requires PipeInv(delay, clock, inFlight, items, waiting, nextGetter, served, servedTo)
    requires inFlight != []
    ensures waiting != [] ==>
              PipeInv(delay, inFlight[0].ready, inFlight[1..], items, waiting[1..], nextGetter,
                      served + [inFlight[0].value], servedTo + [waiting[0]])
    ensures waiting == [] ==>
              PipeInv(delay, inFlight[0].ready, inFlight[1..], items + [inFlight[0].value], waiting, nextGetter,
                      served, servedTo)
  {
    if waiting != [] {
      assert servedTo + [waiting[0]] + waiting[1..] == Upto(nextGetter);
    }
  }

  /** Moving the clock forward to `t` keeps the invariant when nothing in transit is due by `t`. */
  lemma ClockForward<V>(delay: nat, clock: nat, t: nat, inFlight: seq<Pending<V>>, items: seq<V>, waiting: seq<nat>,
                        nextGetter: nat, served: seq<V>, servedTo: seq<nat>)
    requires PipeInv(delay, clock, inFlight, items, waiting, nextGetter, served, servedTo)
    requires clock <= t && (inFlight == [] || t < inFlight[0].ready)
    ensures forall i :: 0 <= i < |inFlight| ==> t < inFlight[i].ready
    ensures PipeInv(delay, t, inFlight, items, waiting, nextGetter, served, servedTo)
  {
    forall i | 0 <= i < |inFlight|
      ensures t < inFlight[i].ready
    {
      assert inFlight[0].ready <= inFlight[i].ready;
    }
  }

  class Pipe<V> {
    const delay: nat
    var clock: nat                   // the simulation time as far as this pipe has seen it
    var inFlight: seq<Pending<V>>    // latency processes started by `put`, oldest first
    var items: seq<V>                // the store's buffer, oldest first
    var waiting: seq<nat>            // handles of `get` requests not yet resolved, oldest first
    var nextGetter: nat              // the handle the next `get` receives

    ghost var served: seq<V>         // the values handed to requests, in the order handed out
    ghost var servedTo: seq<nat>     // the request each of them went to

    ghost predicate Valid()
      reads this
    {
      PipeInv(delay, clock, inFlight, items, waiting, nextGetter, served, servedTo)
    }

    /** The values whose latency has elapsed, in arrival order: those handed out, then those stored. */
    ghost function Delivered(): seq<V>
      reads this
    {
      served + items
    }

    /** Every value put so far, in put order: those delivered, then those in transit. */
    ghost function Sent(): seq<V>
      reads this
    {
      Delivered() + Values(inFlight)
    }

    constructor (delay: nat)
      ensures Valid() && this.delay == delay && clock == 0
      ensures inFlight == [] && items == [] && waiting == [] && nextGetter == 0
      ensures served == [] && Sent() == []
    {
      this.delay := delay;
      clock := 0;
      inFlight, items, waiting, nextGetter := [], [], [], 0;
      served, servedTo := [], [];
    }

    /** Start a latency process for `value`; nothing waits and nothing else changes. */
    method Put(value: V)
      requires Valid()
      modifies this
      ensures Valid()
      ensures inFlight == old(inFlight) + [Pending(old(clock) + delay, value)]
      ensures Sent() == old(Sent()) + [value]
      ensures clock == old(clock) && items == old(items) && waiting == old(waiting)
      ensures nextGetter == old(nextGetter) && served == old(served) && servedTo == old(servedTo)
    {
      ValuesSnoc(inFlight, Pending(clock + delay, value));
      inFlight := inFlight + [Pending(clock + delay, value)];
    }

    /**
     * A `get` request: the oldest stored value if there is one (removed from the store),
     * otherwise the request joins the queue and `None` comes back.
     */
    method Get() returns (handle: nat, r: Option<V>)
      requires Valid()
      modifies this
      ensures Valid()
      ensures handle == old(nextGetter) && nextGetter == old(nextGetter) + 1
      ensures old(items) != [] ==>
                && r == Some(old(items)[0]) && items == old(items)[1..]
                && served == old(served) + [old(items)[0]] && servedTo == old(servedTo) + [handle]
                && waiting == old(waiting)
      ensures old(items) == [] ==>
                r == None && items == [] && waiting == old(waiting) + [handle]
                && served == old(served) && servedTo == old(servedTo)
      ensures Delivered() == old(Delivered()) && Sent() == old(Sent())
      ensures clock == old(clock) && inFlight == old(inFlight)
    {
      handle := nextGetter;
      nextGetter := nextGetter + 1;
      if items != [] {
        r := Some(items[0]);
        assert servedTo + [handle] == Upto(nextGetter);
        assert served + [items[0]] + items[1..] == served + items;
        served, servedTo := served + [items[0]], servedTo + [handle];
        items := items[1..];
      } else {
        r := None;
        assert servedTo + (waiting + [handle]) == Upto(nextGetter);
        waiting := waiting + [handle];
      }
    }

    /**
     * The oldest latency process wakes at its due time and puts its value in the store,
     * which hands it to the oldest queued request if there is one.
     */
    method DeliverNext()
      requires Valid() && inFlight != []
      modifies this
      ensures Valid()
      ensures clock == old(inFlight)[0].ready && inFlight == old(inFlight)[1..]
      ensures Delivered() == old(Delivered()) + [old(inFlight)[0].value] && Sent() == old(Sent())
      ensures old(waiting) != [] ==>
                && served == old(served) + [old(inFlight)[0].value]
                && servedTo == old(servedTo) + [old(waiting)[0]]
                && waiting == old(waiting)[1..] && items == old(items)
      ensures old(waiting) == [] ==>
                items == old(items) + [old(inFlight)[0].value] && waiting == []
                && served == old(served) && servedTo == old(servedTo)
      ensures nextGetter == old(nextGetter)
    {
      var next := inFlight[0];
      DeliverKeepsInv(delay, clock, inFlight, items, waiting, nextGetter, served, servedTo);
      assert Values(inFlight) == [next.value] + Values(inFlight[1..]);
      if waiting != [] {
        served, servedTo := served + [next.value], servedTo + [waiting[0]];
        waiting := waiting[1..];
      } else {
        items := items + [next.value];
      }
      clock := next.ready;
      inFlight := inFlight[1..];
    }

    /** Let time run to `t`: every latency process due by then delivers, oldest first. */
    method Advance(t: nat)
      requires Valid() && clock <= t
      modifies this
      ensures Valid() && clock == t
      ensures var n := DueCount(old(inFlight), t);
              && inFlight == old(inFlight)[n..]
              && Delivered() == old(Delivered()) + Values(old(inFlight)[..n])
      ensures forall i :: 0 <= i < |inFlight| ==> t < inFlight[i].ready
      ensures Sent() == old(Sent())
      ensures old(waiting) == [] ==> waiting == [] && served == old(served) && servedTo == old(servedTo)
      ensures nextGetter == old(nextGetter)
    {
      DeliverDue(t);
      ClockForward(delay, clock, t, inFlight, items, waiting, nextGetter, served, servedTo);
      clock := t;
    }

    /** The deliveries of `Advance`: the latency processes due by `t`, oldest first. */
    method DeliverDue(t: nat)
      requires Valid() && clock <= t
      modifies this
      ensures Valid() && clock <= t && (inFlight == [] || t < inFlight[0].ready)
      ensures var n := DueCount(old(inFlight), t);
              && inFlight == old(inFlight)[n..]
              && Delivered() == old(Delivered()) + Values(old(inFlight)[..n])
      ensures Sent() == old(Sent())
      ensures old(waiting) == [] ==> waiting == [] && served == old(served) && servedTo == old(servedTo)
      ensures nextGetter == old(nextGetter)
    {
      ghost var k := 0;
      ghost var start, delivered0, sent0 := inFlight, Delivered(), Sent();
      ghost var waiting0, served0, servedTo0 := waiting, served, servedTo;
      while inFlight != [] && inFlight[0].ready <= t
        invariant Valid() && clock <= t
        invariant k <= |start| && inFlight == start[k..]
        invariant DueCount(start, t) == k + DueCount(inFlight, t)
        invariant Delivered() == delivered0 + Values(start[..k]) && Sent() == sent0
        invariant waiting0 == [] ==> waiting == [] && served == served0 && servedTo == servedTo0
        invariant nextGetter == old(nextGetter)
        decreases |inFlight|
      {
        ghost var before := Delivered();
        DeliverNext();
        DeliveredStep(start, k, t, delivered0, before, Delivered());
        k := k + 1;
      }
    }
  }

  /** The receiving process: a callback that re-registers itself before handling each value. */
  class Receiver<V> {
    const cable: Pipe<V>
    var msgEvent: nat   // the handle of the receiver's current `get`
    var msgRcv: bool

    constructor (cable: Pipe<V>)
      requires cable.Valid()
      modifies cable
      ensures this.cable == cable && cable.Valid()
      ensures msgEvent == old(cable.nextGetter) && !msgRcv
      ensures cable.nextGetter == old(cable.nextGetter) + 1
      ensures old(cable.items) == [] ==> cable.items == [] && cable.waiting == old(cable.waiting) + [msgEvent]
      ensures old(cable.items) != [] ==>
                cable.items == old(cable.items)[1..] && cable.servedTo == old(cable.servedTo) + [msgEvent]
      ensures cable.Sent() == old(cable.Sent()) && cable.inFlight == old(cable.inFlight)
    {
      this.cable := cable;
      var handle, _ := cable.Get();
      msgEvent := handle;
      msgRcv := false;
    }

    /**
     * The callback run when the current `get` delivers: it first issues a new `get` (so a
     * request is outstanding again), then records that a message arrived. If the store
     * already held a value the new request is resolved at once and it is returned, to be
     * delivered through this callback in turn.
     */
    method MsgCallback() returns (again: Option<V>)
      requires cable.Valid()
      modifies this, cable
      ensures cable.Valid() && msgRcv
      ensures msgEvent == old(cable.nextGetter)
      ensures again.None? ==> old(cable.items) == [] && cable.waiting == old(cable.waiting) + [msgEvent]
      ensures again.Some? ==> old(cable.items) != [] && again.value == old(cable.items)[0]
                                && cable.items == old(cable.items)[1..] && cable.servedTo == old(cable.servedTo) + [msgEvent]
      ensures cable.Sent() == old(cable.Sent()) && cable.inFlight == old(cable.inFlight)
    {
      var handle, r := cable.Get();
      msgEvent := handle;
      again := r;
      msgRcv := true;
    }

    /** The start of one pass of the receiver's own loop: a new `get`, and no message seen yet. */
    method BeginWork() returns (again: Option<V>)
      requires cable.Valid()
      modifies this, cable
      ensures cable.Valid() && !msgRcv
      ensures msgEvent == old(cable.nextGetter)
      ensures again.None? ==> old(cable.items) == [] && cable.waiting == old(cable.waiting) + [msgEvent]
      ensures again.Some? ==> old(cable.items) != [] && again.value == old(cable.items)[0]
                                && cable.items == old(cable.items)[1..] && cable.servedTo == old(cable.servedTo) + [msgEvent]
      ensures cable.Sent() == old(cable.Sent()) && cable.inFlight == old(cable.inFlight)
    {
      var handle, r := cable.Get();
      msgEvent := handle;
      again := r;
      msgRcv := false;
    }
  }

  /**
   * With delay 2, a value put at time 5 is not in the store at time 6 and is the value a
   * `get` at time 7 receives.
   */
  method LatencyScenario() returns (storedAt6: nat, gotAt7: Option<string>)
    ensures storedAt6 == 0 && gotAt7 == Some("A")
  {
    var cable := new Pipe<string>(2);
    cable.Advance(5);
    assert cable.items == [] && cable.waiting == [];
    cable.Put("A");
    storedAt6, gotAt7 := WatchArrival(cable, "A");
  }

  /**
   * A pipe whose only value in transit is due at 7, with nothing stored and nothing queued:
   * at 6 the store is still empty, and a `get` at 7 receives that value.
   */
  method WatchArrival<V>(cable: Pipe<V>, v: V) returns (storedAt6: nat, gotAt7: Option<V>)
    requires cable.Valid() && cable.clock <= 6
    requires cable.inFlight == [Pending(7, v)] && cable.items == [] && cable.waiting == []
    modifies cable
    ensures storedAt6 == 0 && gotAt7 == Some(v)
  {
    storedAt6 := WaitNotDue(cable, v);
    gotAt7 := ReceiveDue(cable, v);
  }

  /** The due counts of a single value due at 7. */
  lemma DueAtSeven<V>(v: V)
    ensures DueCount([Pending(7, v)], 6) == 0 && [Pending(7, v)][..0] == [] && Values<V>([]) == []
    ensures DueCount([Pending(7, v)], 7) == 1 && [Pending(7, v)][..1] == [Pending(7, v)]
    ensures Values([Pending(7, v)]) == [v]
  {
    assert [Pending(7, v)][1..] == [];
  }

  /** At 6 the value due at 7 is still in transit and the store is still empty. */
  method WaitNotDue<V>(cable: Pipe<V>, v: V) returns (stored: nat)
    requires cable.Valid() && cable.clock <= 6
    requires cable.inFlight == [Pending(7, v)] && cable.items == [] && cable.waiting == []
    modifies cable
    ensures stored == 0 && cable.Valid() && cable.clock == 6
    ensures cable.inFlight == [Pending(7, v)] && cable.items == [] && cable.waiting == []
  {
    DueAtSeven(v);
    ghost var served := cable.served;
    cable.Advance(6);
    StoredAfter(served, [], cable.items, []);
    stored := |cable.items|;
  }

  /** At 7 the value due then arrives in the empty store, and a `get` receives it. */
  method ReceiveDue<V>(cable: Pipe<V>, v: V) returns (got: Option<V>)
    requires cable.Valid() && cable.clock <= 7
    requires cable.inFlight == [Pending(7, v)] && cable.items == [] && cable.waiting == []
    modifies cable
    ensures got == Some(v)
  {
    DueAtSeven(v);
    ghost var served := cable.served;
    cable.Advance(7);
    StoredAfter(served, [], cable.items, [v]);
    var _, r := cable.Get();
    got := r;
  }

  /** When nothing more was handed out, the store grew by exactly the values that arrived. */
  lemma StoredAfter<V>(served: seq<V>, before: seq<V>, after: seq<V>, arrived: seq<V>)
    requires served + after == (served + before) + arrived
    ensures after == before + arrived
  {
    assert after == (served + after)[|served|..];
  }

  /** The i-th value of a run of latency processes is the value the i-th one carries. */
  lemma {:induction false} ValuesAt<V>(ps: seq<Pending<V>>, i: nat)
    requires i < |ps|
    ensures Values(ps)[i] == ps[i].value
  {
    if i > 0 {
      ValuesAt(ps[1..], i - 1);
    }
  }

  /**
   * Each value reaches exactly one request, in put order. `Sent()` is by definition the values
   * handed out, then those stored, then those in transit; it is the log of every value put,
   * in put order, because `Put` extends it by the value put and `Get`, `DeliverNext` and
   * `Advance` leave it unchanged. The value parts of the first three clauses read that
   * decomposition index by index. What the invariant adds is `servedTo[i] == i` and the last
   * clause: the i-th value handed out went to the i-th request made, so requests are served
   * in order and none twice.
   */
  lemma WorkQueueOrder<V>(p: Pipe<V>)
    requires p.Valid()
    ensures forall i :: 0 <= i < |p.served| ==> p.served[i] == p.Sent()[i] && p.servedTo[i] == i
    ensures forall i :: 0 <= i < |p.items| ==> p.items[i] == p.Sent()[|p.served| + i]
    ensures forall i :: 0 <= i < |p.inFlight| ==> p.inFlight[i].value == p.Sent()[|p.served| + |p.items| + i]
    ensures forall i, j :: 0 <= i < j < |p.servedTo| ==> p.servedTo[i] != p.servedTo[j]
  {
    var sent := p.Sent();
    assert sent == p.served + p.items + Values(p.inFlight);
    forall i | 0 <= i < |p.served|
      ensures p.served[i] == sent[i] && p.servedTo[i] == i
    {
      assert (p.servedTo + p.waiting)[i] == p.servedTo[i];
    }
    forall i | 0 <= i < |p.inFlight|
      ensures p.inFlight[i].value == sent[|p.served| + |p.items| + i]
    {
      ValuesAt(p.inFlight, i);
    }
  }
}

=== FILE: planner.dfy ===
/**
 * The mission planner (class `AuvPlanner`): it keeps the target list, applies classification
 * feedback and navigation updates as they arrive, and periodically asks the vehicle for its
 * position, orders the unclassified targets with the open-route solver and publishes a plan.
 *
 * The planner's `run` process is cut at its waits into three segments (`Begin`,
 * `PlanTargets`, `FinishPlanning`); each returns the length of the wait that follows it and
 * records in `pc` where the process resumes. The two subscription callbacks can run between
 * any two segments.
 */
module Planner {
  import opened Basics
  import opened Targets
  import opened Msgs
  import opened Pipes
  import opened Ovrp

  const PlannerTimeout: nat := 100   // the wait that ends every pass of the loop
  const NavWait: nat := 1            // the wait after a navigation request

  /** The fixture points of the debug target list, in metres. */
  const TestPoints: seq<Pos> := [
    Pos(100.0, 0.0, -100.0), Pos(100.0, 100.0, -100.0), Pos(0.0, 100.0, 0.0), Pos(0.0, 0.0, 0.0),
    Pos(-100.0, 0.0, 0.0), Pos(-100.0, -100.0, 0.0), Pos(0.0, -100.0, 0.0), Pos(0.0, 0.0, 0.0)]

  /** One element `[uid, target]` of the planner's target list. */
  datatype Entry = Entry(uid: int, target: Target)

  /** Every entry's uid, and its target's id, equal its index in the list. */
  predicate IdsAreIndices(ts: seq<Entry>) {
    forall i :: 0 <= i < |ts| ==> ts[i].uid == i && ts[i].target.id == i
  }

  // ---- Python list indexing ----

  /** The slot `xs[i]` refers to in a list of length `len`: negative indices count from the end. */
  function PyIndex(i: int, len: nat): (r: Option<nat>)
    ensures r.Some? <==> -(len as int) <= i < len
    ensures r.Some? ==> r.value < len && (r.value == i || r.value == len + i)
    ensures 0 <= i < len ==> r == Some(i)
  {
    if 0 <= i < len then Some(i)
    else if -(len as int) <= i < 0 then Some(len + i)
    else None
  }

  /**
   * The target list after the feedback `(id, cls)`: the target at `targets_list[id]` gets the
   * classification `cls`; `None` is the IndexError of an id outside the list.
   */
  function Reclassify(ts: seq<Entry>, id: int, cls: string): (r: Option<seq<Entry>>)
    ensures r.Some? <==> PyIndex(id, |ts|).Some?
  {
    match PyIndex(id, |ts|)
    case None => None
    case Some(j) => Some(ts[j := ts[j].(target := ts[j].target.(classification := cls))])
  }

  /**
   * Feedback changes the classification of exactly the addressed target: its uid, id and
   * position stay, and every other entry is untouched. The id-index correspondence survives.
   */
  lemma ReclassifyTouchesOnlyIndex(ts: seq<Entry>, id: int, cls: string)
    requires PyIndex(id, |ts|).Some?
    ensures var j := PyIndex(id, |ts|).value; var r := Reclassify(ts, id, cls).value;
            && |r| == |ts|
            && r[j].target.classification == cls
            && r[j].uid == ts[j].uid && r[j].target.id == ts[j].target.id
            && r[j].target.nedPos == ts[j].target.nedPos
            && (forall i :: 0 <= i < |ts| && i != j ==> r[i] == ts[i])
    ensures IdsAreIndices(ts) ==> IdsAreIndices(Reclassify(ts, id, cls).value)
  {
  }

  // ---- the unclassified filter ----

  /** The indices of the entries whose classification is still "None", in increasing order. */
  function UnclassifiedIndices(ts: seq<Entry>): (idx: seq<nat>)
    ensures |idx| <= |ts| && forall k :: 0 <= k < |idx| ==> idx[k] < |ts|
  {
    if ts == [] then []
    else
      var last := |ts| - 1;
      UnclassifiedIndices(ts[..last]) + if ts[last].target.classification == Unclassified then [last] else []
  }

  /**
   * The filter keeps exactly the unclassified indices, each once, in increasing order.
   */
  lemma {:induction false} UnclassifiedIndicesExact(ts: seq<Entry>)
    ensures var idx := UnclassifiedIndices(ts);
            && (forall k :: 0 <= k < |idx| ==> idx[k] < |ts| && ts[idx[k]].target.classification == Unclassified)
            && (forall k, l :: 0 <= k < l < |idx| ==> idx[k] < idx[l])
            && (forall i :: 0 <= i < |ts| ==> (ts[i].target.classification == Unclassified <==> i in idx))
  {
    if ts != [] {
      var last := |ts| - 1;
      var front := ts[..last];
      UnclassifiedIndicesExact(front);
      var idx := UnclassifiedIndices(ts);
      var pre := UnclassifiedIndices(front);
      assert idx == pre + if ts[last].target.classification == Unclassified then [last] else [];
      forall i | 0 <= i < |ts|
        ensures ts[i].target.classification == Unclassified <==> i in idx
      {
        if i < last {
          assert ts[i] == front[i];
          assert i != last;
        }
      }
    }
  }

  /** `unclassified_targets`: the pairs `[i, target]` for the unclassified entries. */
  method SelectUnclassified(ts: seq<Entry>) returns (sel: seq<(nat, Target)>)
    ensures |sel| == |UnclassifiedIndices(ts)|
    ensures forall k :: 0 <= k < |sel| ==>
              var i := UnclassifiedIndices(ts)[k]; i < |ts| && sel[k] == (i, ts[i].target)
  {
    sel := [];
    for i := 0 to |ts|
      invariant |sel| == |UnclassifiedIndices(ts[..i])|
      invariant forall k :: 0 <= k < |sel| ==>
                  var j := UnclassifiedIndices(ts[..i])[k]; j < i && sel[k] == (j, ts[j].target)
    {
      assert ts[..i + 1][..i] == ts[..i];
      if ts[i].target.classification == Unclassified {
        sel := sel + [(i, ts[i].target)];
      }
    }
    assert ts[..|ts|] == ts;
  }

  // ---- the solver input ----

  /**
   * `positions` and `target_list`: the vehicle position first, then the position of each
   * selected target; the targets alone, in selection order.
   */
  method BuildPositions(vehiclePos: Pos, sel: seq<(nat, Target)>) returns (positions: seq<Pos>, targetList: seq<Target>)
    ensures |positions| == 1 + |sel| && positions[0] == vehiclePos
    ensures |targetList| == |sel|
    ensures forall k :: 0 <= k < |sel| ==> positions[k + 1] == sel[k].1.nedPos && targetList[k] == sel[k].1
  {
    positions := [vehiclePos];
    targetList := [];
    for i := 0 to |sel|
      invariant |positions| == 1 + i && positions[0] == vehiclePos && |targetList| == i
      invariant forall k :: 0 <= k < i ==> positions[k + 1] == sel[k].1.nedPos && targetList[k] == sel[k].1
    {
      positions := positions + [sel[i].1.nedPos];
      targetList := targetList + [sel[i].1];
    }
  }

  function Sub(a: Pos, b: Pos): Pos {
    Pos(a.n - b.n, a.e - b.e, a.d - b.d)
  }

  /**
   * `distances[k, p] = norm(positions[k] - positions[p])` for every pair, with `norm` the
   * Euclidean norm (abstract here, but zero on the zero vector), so the diagonal is zero.
   */
  method BuildDistances(positions: seq<Pos>, norm: Pos -> real) returns (d: array2<real>)
    requires norm(Origin) == 0.0
    ensures fresh(d) && d.Length0 == |positions| && d.Length1 == |positions|
    ensures forall k, p :: 0 <= k < |positions| && 0 <= p < |positions| ==>
              d[k, p] == norm(Sub(positions[k], positions[p]))
    ensures forall k :: 0 <= k < |positions| ==> d[k, k] == 0.0
  {
    var n := |positions|;
    d := new real[n, n];
    for k := 0 to n
      invariant forall k', p :: 0 <= k' < k && 0 <= p < n ==> d[k', p] == norm(Sub(positions[k'], positions[p]))
    {
      for p := 0 to n
        invariant forall k', p' :: 0 <= k' < k && 0 <= p' < n ==> d[k', p'] == norm(Sub(positions[k'], positions[p']))
        invariant forall p' :: 0 <= p' < p ==> d[k, p'] == norm(Sub(positions[k], positions[p']))
      {
        d[k, p] := norm(Sub(positions[k], positions[p]));
      }
    }
    forall k | 0 <= k < n
      ensures d[k, k] == 0.0
    {
      assert Sub(positions[k], positions[k]) == Origin;
    }
  }

  // ---- from solver route to target order ----

  /** The target order of a route: the route without its first point (the vehicle), each minus one. */
  function TargetOrder(route: seq<nat>): (order: seq<int>)
    ensures |order| == if route == [] then 0 else |route| - 1
  {
    if route == [] then [] else seq(|route| - 1, i requires 0 <= i < |route| - 1 => route[i + 1] as int - 1)
  }

  /** The route a target order stands for: the vehicle (point 0) first, then each target plus one. */
  function RouteFromOrder(order: seq<int>): (route: seq<int>)
    ensures |route| == |order| + 1 && route[0] == 0
  {
    [0] + seq(|order|, i requires 0 <= i < |order| => order[i] + 1)
  }

  /** Dropping the vehicle and shifting loses nothing for a route that starts at the vehicle. */
  lemma OrderRoundTrip(route: seq<nat>)
    requires route != [] && route[0] == 0
    ensures RouteFromOrder(TargetOrder(route)) == route
  {
    var back := RouteFromOrder(TargetOrder(route));
    forall i | 0 <= i < |route|
      ensures back[i] == route[i]
    {
      if i > 0 {
        assert back[i] == TargetOrder(route)[i - 1] + 1;
      }
    }
  }

  /** `order` lists each of the indices `0 .. m-1` exactly once. */
  predicate IndexPermutation(order: seq<int>, m: nat) {
    && |order| == m
    && (forall i :: 0 <= i < m ==> 0 <= order[i] < m)
    && (forall i, j :: 0 <= i < j < m ==> order[i] != order[j])
    && (forall k :: 0 <= k < m ==> k in order)
  }

  /**
   * A route through the points `0 .. n-1` that starts at the vehicle (point 0) becomes an
   * order that indexes each of the `n - 1` targets exactly once.
   */
  lemma TargetOrderIsPermutation(route: seq<nat>, n: nat)
    requires |route| == n > 0 && route[0] == 0
    requires forall r :: 0 <= r < n ==> route[r] < n
    requires forall r, q :: 0 <= r < q < n ==> route[r] != route[q]
    requires forall k :: 0 <= k < n ==> k in route
    ensures IndexPermutation(TargetOrder(route), n - 1)
  {
    var order := TargetOrder(route);
    forall i | 0 <= i < n - 1
      ensures 0 <= order[i] < n - 1
    {
      assert route[i + 1] != route[0];
    }
    forall i, j | 0 <= i < j < n - 1
      ensures order[i] != order[j]
    {
      assert route[i + 1] != route[j + 1];
    }
    forall k | 0 <= k < n - 1
      ensures k in order
    {
      assert k + 1 in route;
      var r :| 0 <= r < n && route[r] == k + 1;
      assert order[r - 1] == k;
    }
  }

  /** `target_order`, built element by element from the solver's route. */
  method DeriveTargetOrder(route: seq<nat>) returns (order: seq<int>)
    ensures order == TargetOrder(route)
  {
    order := [];
    var i := 1;
    while i < |route|
      invariant 1 <= i <= if route == [] then 1 else |route|
      invariant |order| == i - 1 && forall k :: 0 <= k < i - 1 ==> order[k] == route[k + 1] as int - 1
    {
      order := order + [route[i] as int - 1];
      i := i + 1;
    }
  }

  /**
   * Whether a pass publishes a plan: only when some target is unclassified and the solver
   * found a route (a solver error skips the plan).
   */
  predicate HasPlan(ts: seq<Entry>, answer: Answer) {
    UnclassifiedIndices(ts) != [] && answer.Optimal?
  }

  /**
   * The target order as the planner computes it from whatever the solver returns. The error
   * triple `(0, 0, 0)` makes `len(tsp_route)` raise a TypeError, shown as `None`.
   */
  function OrderAsWritten(r: SolveResult): (order: Option<seq<int>>)
    ensures r.Solved? ==> order == Some(TargetOrder(r.route))
  {
    match r
    case Solved(route, _) => Some(TargetOrder(route))
    case ErrorTriple => None
  }

  /**
   * With an unclassified target left, a solver error stops the planner as written (TypeError),
   * while the planner modelled here skips the plan for that pass.
   */
  lemma SolverErrorCrashesPlanner(ts: seq<Entry>)
    requires UnclassifiedIndices(ts) != []
    ensures OrderAsWritten(ErrorTriple) == None
    ensures !HasPlan(ts, SolverError)
  {
  }

  /**
   * A plan request for the target list `ts` is sound when it lists the unclassified targets
   * in index order, and its order indexes each of them exactly once, following the open path
   * `route` the solver selected from the vehicle (point 0) to the last target.
   */
  ghost predicate PlanSound(ts: seq<Entry>, answer: Answer, m: Message, route: seq<nat>) {
    var idx := UnclassifiedIndices(ts);
    && answer.Optimal?
    && m.PlanReq?
    && |m.targetList| == |idx|
    && (forall k :: 0 <= k < |idx| ==> m.targetList[k] == ts[idx[k]].target)
    && IndexPermutation(m.targetOrder, |idx|)
    && Square(answer.assignment.x, 1 + |idx|)
    && OpenPath(route, WithDefaults(1 + |idx|, None, None), answer.assignment.x)
    && m.targetOrder == TargetOrder(route)
    && RouteFromOrder(m.targetOrder) == route
  }

  /**
   * One planning computation: select the unclassified targets, put the vehicle first in the
   * solver input, take the last target as the end point, and turn the solver's route into a
   * plan request. The request lists the selected targets in index order, and its order
   * indexes each of them exactly once, following the solver's open path from the vehicle.
   */
  method ComputePlan(ts: seq<Entry>, vehiclePos: Pos, answer: Answer, norm: Pos -> real) returns (plan: Option<Message>, ghost route: seq<nat>)
    requires norm(Origin) == 0.0
    requires answer.Optimal? ==> Feasible(WithDefaults(1 + |UnclassifiedIndices(ts)|, None, None), answer.assignment)
    ensures plan.Some? <==> HasPlan(ts, answer)
    ensures plan.Some? ==> PlanSound(ts, answer, plan.value, route)
  {
    route := [];
    plan := None;
    var sel := SelectUnclassified(ts);
    if |sel| > 0 {
      var positions, targetList := BuildPositions(vehiclePos, sel);
      var n := |positions|;
      var distances := BuildDistances(positions, norm);
      var result := Solve(n, None, None, answer);
      if result.Solved? {
        var a := answer.assignment;
        var p := WithDefaults(n, None, None);
        forall k | 0 <= k < n
          ensures k in result.route
        {
          assert result.route[a.u[k] - a.u[p.start]] == k;
        }
        route := result.route;
        TargetOrderIsPermutation(route, n);
        OrderRoundTrip(route);
        var order := DeriveTargetOrder(result.route);
        plan := Some(PlanReq(targetList, order));
      }
    }
  }

  /** Where the planner's process resumes. */
  datatype Phase = LoopHead | AfterNavWait | AfterCompute

  class AuvPlanner {
    const debug: bool
    const planRequest: Pipe<Message>
    const planFeedback: Pipe<Message>
    const navReq: Pipe<Message>
    const navUpdate: Pipe<Message>

    var planMsgEvent: nat     // handle of the pending `get` on plan feedback
    var navMsgEvent: nat      // handle of the pending `get` on navigation updates
    var vehiclePos: Pos
    var gotNav: bool
    var targetsList: seq<Entry>
    var uid: int
    var testPoints: seq<Pos>  // the debug fixture, consumed while the list is built

    var firstTime: bool       // `first_time` in the planner's process
    var pc: Phase
    ghost var published: nat  // plans published so far

    /** The planner's own invariant; each operation separately keeps the pipes it uses valid. */
    ghost predicate Valid()
      reads this
    {
      && IdsAreIndices(targetsList)
      && (!debug ==> firstTime && pc == LoopHead && published == 0)
      && (firstTime ==> pc == LoopHead && published == 0)
      && (pc == AfterNavWait ==> published == 0)
      && published <= 1
    }

    constructor (debug: bool, planRequest: Pipe<Message>, planFeedback: Pipe<Message>, navReq: Pipe<Message>, navUpdate: Pipe<Message>)
      requires planRequest.Valid() && planFeedback.Valid() && navReq.Valid() && navUpdate.Valid()
      modifies planFeedback, navUpdate
      ensures Valid() && planFeedback.Valid() && navUpdate.Valid()
      ensures this.debug == debug && this.planRequest == planRequest && this.planFeedback == planFeedback
      ensures this.navReq == navReq && this.navUpdate == navUpdate
      ensures vehiclePos == Origin && !gotNav && firstTime && pc == LoopHead && published == 0
      ensures debug ==> |targetsList| == |TestPoints| &&
                        forall i :: 0 <= i < |TestPoints| ==> targetsList[i] == Entry(i, NewTarget(i, TestPoints[i]))
      ensures !debug ==> targetsList == []
      ensures planMsgEvent == old(planFeedback.nextGetter)
      ensures navMsgEvent == old(navUpdate.nextGetter) + (if planFeedback == navUpdate then 1 else 0)
      ensures planFeedback != navUpdate ==>
                && (old(planFeedback.items) == [] ==> planFeedback.waiting == old(planFeedback.waiting) + [planMsgEvent])
                && (old(navUpdate.items) == [] ==> navUpdate.waiting == old(navUpdate.waiting) + [navMsgEvent])
      ensures planFeedback != navUpdate ==>
                && (old(planFeedback.items) != [] ==>
                      planFeedback.items == old(planFeedback.items)[1..]
                      && planFeedback.servedTo == old(planFeedback.servedTo) + [planMsgEvent])
                && (old(navUpdate.items) != [] ==>
                      navUpdate.items == old(navUpdate.items)[1..]
                      && navUpdate.servedTo == old(navUpdate.servedTo) + [navMsgEvent])
      ensures planFeedback == navUpdate && old(planFeedback.items) == [] ==>
                planFeedback.waiting == old(planFeedback.waiting) + [planMsgEvent, navMsgEvent]
      ensures planFeedback.Sent() == old(planFeedback.Sent()) && navUpdate.Sent() == old(navUpdate.Sent())
      ensures planFeedback.inFlight == old(planFeedback.inFlight) && navUpdate.inFlight == old(navUpdate.inFlight)
    {
      this.debug := debug;
      this.planRequest := planRequest;
      this.planFeedback := planFeedback;
      this.navReq := navReq;
      this.navUpdate := navUpdate;
      var h1, _ := planFeedback.Get();
      planMsgEvent := h1;
      var h2, _ := navUpdate.Get();
      navMsgEvent := h2;
      vehiclePos := Origin;
      gotNav := false;
      targetsList := [];
      uid := 0;
      testPoints := [];
      firstTime := true;
      pc := LoopHead;
      published := 0;
      new;
      if debug {
        Testing();
      }
    }

    /** `__testing__`: the fixture list, the i-th point becoming unclassified target i with uid i. */
    method Testing()
      modifies this
      ensures |targetsList| == |TestPoints| && uid == |TestPoints| && testPoints == []
      ensures forall i :: 0 <= i < |TestPoints| ==> targetsList[i] == Entry(i, NewTarget(i, TestPoints[i]))
      ensures IdsAreIndices(targetsList)
      ensures vehiclePos == old(vehiclePos) && gotNav == old(gotNav) && firstTime == old(firstTime)
      ensures pc == old(pc) && published == old(published)
      ensures planMsgEvent == old(planMsgEvent) && navMsgEvent == old(navMsgEvent)
    {
      testPoints := TestPoints;
      targetsList := [];
      uid := 0;
      var count := |testPoints|;
      for i := 0 to count
        invariant |targetsList| == i && uid == i && testPoints == TestPoints[i..]
        invariant vehiclePos == old(vehiclePos) && gotNav == old(gotNav) && firstTime == old(firstTime)
        invariant pc == old(pc) && published == old(published)
        invariant planMsgEvent == old(planMsgEvent) && navMsgEvent == old(navMsgEvent)
        invariant forall j :: 0 <= j < i ==> targetsList[j] == Entry(j, NewTarget(j, TestPoints[j]))
      {
        targetsList := targetsList + [Entry(uid, NewTarget(uid, testPoints[0]))];
        testPoints := testPoints[1..];
        uid := uid + 1;
      }
    }

    /**
     * `handle_plan_feedback`: re-subscribe, then set the classification of the target at
     * `targets_list[target_id]`. A message that is not feedback, or an id outside the list,
     * raises (`raised`), after the re-subscription and with the list unchanged.
     */
    method HandlePlanFeedback(m: Message) returns (again: Option<Message>, raised: bool)
      requires Valid() && planFeedback.Valid()
      modifies this, planFeedback
      ensures Valid() && planFeedback.Valid()
      ensures planMsgEvent == old(planFeedback.nextGetter)
      ensures again.None? ==> planFeedback.waiting == old(planFeedback.waiting) + [planMsgEvent]
      ensures again.Some? ==> old(planFeedback.items) != [] && again.value == old(planFeedback.items)[0]
                                && planFeedback.items == old(planFeedback.items)[1..] && planFeedback.servedTo == old(planFeedback.servedTo) + [planMsgEvent]
      ensures planFeedback.Sent() == old(planFeedback.Sent()) && planFeedback.inFlight == old(planFeedback.inFlight)
      ensures raised <==> !(m.PlanFeedback? && Reclassify(old(targetsList), m.targetId, m.targetClass).Some?)
      ensures !raised ==> targetsList == Reclassify(old(targetsList), m.targetId, m.targetClass).value
      ensures raised ==> targetsList == old(targetsList)
      ensures vehiclePos == old(vehiclePos) && gotNav == old(gotNav) && navMsgEvent == old(navMsgEvent)
      ensures firstTime == old(firstTime) && pc == old(pc) && published == old(published)
    {
      var h, r := planFeedback.Get();
      planMsgEvent := h;
      again := r;
      if m.PlanFeedback? {
        var next := Reclassify(targetsList, m.targetId, m.targetClass);
        if next.Some? {
          ReclassifyTouchesOnlyIndex(targetsList, m.targetId, m.targetClass);
          targetsList := next.value;
          raised := false;
        } else {
          raised := true;
        }
      } else {
        raised := true;
      }
    }

    /**
     * `handle_nav_update`: note that navigation arrived, re-subscribe, and take the reported
     * position. A message without a position raises after the first two steps.
     */
    method HandleNavUpdate(m: Message) returns (again: Option<Message>, raised: bool)
      requires Valid() && navUpdate.Valid()
      modifies this, navUpdate
      ensures Valid() && navUpdate.Valid()
      ensures gotNav && navMsgEvent == old(navUpdate.nextGetter)
      ensures again.None? ==> navUpdate.waiting == old(navUpdate.waiting) + [navMsgEvent]
      ensures again.Some? ==> old(navUpdate.items) != [] && again.value == old(navUpdate.items)[0]
                                && navUpdate.items == old(navUpdate.items)[1..] && navUpdate.servedTo == old(navUpdate.servedTo) + [navMsgEvent]
      ensures navUpdate.Sent() == old(navUpdate.Sent()) && navUpdate.inFlight == old(navUpdate.inFlight)
      ensures raised <==> !m.NavUpdate?
      ensures vehiclePos == if m.NavUpdate? then m.pos else old(vehiclePos)
      ensures targetsList == old(targetsList) && planMsgEvent == old(planMsgEvent)
      ensures firstTime == old(firstTime) && pc == old(pc) && published == old(published)
    {
      gotNav := true;
      var h, r := navUpdate.Get();
      navMsgEvent := h;
      again := r;
      if m.NavUpdate? {
        vehiclePos := m.pos;
        raised := false;
      } else {
        raised := true;
      }
    }

    /**
     * The head of the loop. In debug mode the first pass has new targets: it asks for a
     * navigation update and waits one time unit. Every other pass has none and ends with the
     * planner period.
     */
    method Begin() returns (wait: nat)
      requires Valid() && navReq.Valid() && pc == LoopHead
      modifies this, navReq
      ensures Valid() && navReq.Valid()
      ensures var newTargets := debug && old(firstTime);
              && firstTime == (old(firstTime) && !debug)
              && (newTargets ==> !gotNav && pc == AfterNavWait && wait == NavWait
                                 && navReq.inFlight == old(navReq.inFlight) + [Pending(old(navReq.clock) + navReq.delay, NavReq)])
              && (!newTargets ==> gotNav == old(gotNav) && pc == LoopHead && wait == PlannerTimeout
                                  && navReq.inFlight == old(navReq.inFlight))
      ensures navReq.Sent() == old(navReq.Sent()) + (if debug && old(firstTime) then [NavReq] else [])
      ensures navReq.items == old(navReq.items) && navReq.waiting == old(navReq.waiting)
      ensures navReq.served == old(navReq.served) && navReq.servedTo == old(navReq.servedTo)
      ensures navReq.clock == old(navReq.clock)
      ensures planMsgEvent == old(planMsgEvent) && navMsgEvent == old(navMsgEvent)
      ensures targetsList == old(targetsList) && vehiclePos == old(vehiclePos) && published == old(published)
    {
      var newTargets := false;
      if debug {
        if firstTime {
          newTargets := true;
          firstTime := false;
        }
      }
      if newTargets {
        gotNav := false;
        navReq.Put(NavReq);
        pc := AfterNavWait;
        wait := NavWait;
      } else {
        wait := PlannerTimeout;
      }
    }

    /**
     * After the navigation wait: publish the plan for the unclassified targets if there is
     * one, and wait the measured computation time `computeTime`; otherwise the pass ends with
     * the planner period.
     */
    method PlanTargets(answer: Answer, norm: Pos -> real, computeTime: nat) returns (wait: nat, plan: Option<Message>, ghost route: seq<nat>)
      requires Valid() && planRequest.Valid() && pc == AfterNavWait && norm(Origin) == 0.0
      requires answer.Optimal? ==>
                 Feasible(WithDefaults(1 + |UnclassifiedIndices(targetsList)|, None, None), answer.assignment)
      modifies this, planRequest
      ensures Valid() && planRequest.Valid()
      ensures plan.Some? <==> HasPlan(old(targetsList), answer)
      ensures plan.Some? ==> PlanSound(old(targetsList), answer, plan.value, route)
      ensures plan.None? ==> pc == LoopHead && wait == PlannerTimeout && published == old(published)
                             && planRequest.inFlight == old(planRequest.inFlight)
      ensures plan.Some? ==> pc == AfterCompute && wait == computeTime && published == old(published) + 1
                             && planRequest.inFlight == old(planRequest.inFlight) + [Pending(old(planRequest.clock) + planRequest.delay, plan.value)]
      ensures planRequest.Sent() == old(planRequest.Sent()) + (if plan.Some? then [plan.value] else [])
      ensures planRequest.items == old(planRequest.items) && planRequest.waiting == old(planRequest.waiting)
      ensures planRequest.served == old(planRequest.served) && planRequest.servedTo == old(planRequest.servedTo)
      ensures planRequest.clock == old(planRequest.clock)
      ensures planMsgEvent == old(planMsgEvent) && navMsgEvent == old(navMsgEvent) && gotNav == old(gotNav)
      ensures targetsList == old(targetsList) && vehiclePos == old(vehiclePos) && firstTime == old(firstTime)
    {
      plan, route := ComputePlan(targetsList, vehiclePos, answer, norm);
      if plan.Some? {
        published := published + 1;
        pc := AfterCompute;
        wait := computeTime;
        planRequest.Put(plan.value);
      } else {
        pc := LoopHead;
        wait := PlannerTimeout;
      }
    }

    /** After the computation wait, the pass ends with the planner period. */
    method FinishPlanning() returns (wait: nat)
      requires Valid() && pc == AfterCompute
      modifies this
      ensures Valid() && pc == LoopHead && wait == PlannerTimeout
      ensures targetsList == old(targetsList) && vehiclePos == old(vehiclePos) && gotNav == old(gotNav)
      ensures firstTime == old(firstTime) && published == old(published)
      ensures planMsgEvent == old(planMsgEvent) && navMsgEvent == old(navMsgEvent)
    {
      pc := LoopHead;
      wait := PlannerTimeout;
    }

    /**
     * The planner never publishes more than one plan, and none at all outside debug mode.
     * The bound is part of `Valid()`; what carries it is that the constructor establishes
     * `Valid()` and `Begin`, `PlanTargets`, `FinishPlanning` and both handlers preserve it,
     * with `PlanTargets` the only one that raises `published`.
     */
    lemma AtMostOnePlan()
      requires Valid()
      ensures published <= 1 && (!debug ==> published == 0)
    {
    }
  }
}

=== FILE: targets.dfy ===
/**
 * Positions and inspection targets.
 *
 * The target class itself (target.py) is not part of this model; a target is the record
 * `(id, ned_pos, classification)` that the planner reads and writes.
 */
module Targets {

  /** A position in the local North-East-Down frame. */
  datatype Pos = Pos(n: real, e: real, d: real)

  const Origin: Pos := Pos(0.0, 0.0, 0.0)

  /** The classification string that the planner treats as "not yet classified". */
  const Unclassified: string := "None"

  datatype Target = Target(id: int, nedPos: Pos, classification: string)

  /** A freshly created target, not yet classified. */
  function NewTarget(id: int, pos: Pos): Target
  {
    Target(id, pos, Unclassified)
  }
}

=== FILE: vehicle.dfy ===
/**
 * The vehicle's idle -> navigate -> inspect state machine (class `Auv`).
 *
 * Virtual time is a natural number and every timeout is an explicit step of its duration.
 * The floating-point geometry of a pilot request (bearing, yaw normalisation, Euclidean
 * distance) is an abstract `Geometry` function that gives the signed turn, the non-negative
 * distance and the resulting yaw.
 */
module Vehicle {
  import opened Targets

  /** The three state codes; `next_state` may in principle hold any integer. */
  const Idle: int := 0
  const NavigateToTarget: int := 1
  const InspectTarget: int := 2

  const LinearVel: real := 0.4   // metres per time unit
  const RotVel: real := 0.3      // radians per time unit
  const InspectionDuration: nat := 120

  predicate Known(state: int) {
    state == Idle || state == NavigateToTarget || state == InspectTarget
  }

  type Distance = r: real | r >= 0.0

  /** What the geometry yields for one pilot request. */
  datatype Pilot = Pilot(turn: real, dist: Distance, yaw: real)

  /** Maps (goal, current position, current yaw) to the pilot request's turn, distance and new yaw. */
  type Geometry = (Pos, Pos, real) -> Pilot

  function Abs(x: real): real {
    if x < 0.0 then -x else x
  }

  /** `distance // linear_vel`: the largest whole number of time units whose travel fits in `distance`. */
  function MoveTime(distance: Distance): (t: nat)
    ensures t as real * LinearVel <= distance < (t + 1) as real * LinearVel
  {
    (distance / LinearVel).Floor
  }

  /** `abs(angle) // rot_vel`: the largest whole number of time units whose turn fits in `|angle|`. */
  function RotateTime(angle: real): (t: nat)
    ensures t as real * RotVel <= Abs(angle) < (t + 1) as real * RotVel
  {
    (Abs(angle) / RotVel).Floor
  }

  /** A snapshot of every field the state machine reads or writes, plus the clock. */
  datatype AuvState = AuvState(
    currState: int,
    nextState: int,
    targets: seq<Pos>,
    nextTargetPos: Pos,
    currPos: Pos,
    currYaw: real,
    now: nat)

  /** The state right after construction: idle at the origin at time 0 with the given targets. */
  function Init(targets: seq<Pos>): AuvState {
    AuvState(Idle, Idle, targets, Origin, Origin, 0.0, 0)
  }

  /** One pass through the body of the `while True` loop of `run`, up to and including its yield. */
  function StepSpec(s: AuvState, geo: Geometry): (t: AuvState)
    ensures t.currState == s.nextState && t.now >= s.now
    ensures t.targets == s.targets || (s.targets != [] && t.targets == s.targets[1..])
    ensures t.targets != s.targets ==> s.nextState == Idle && t.nextTargetPos == s.targets[0]
  {
    var cur := s.nextState;
    if cur == Idle then
      if |s.targets| > 0 then
        s.(currState := cur, nextTargetPos := s.targets[0], targets := s.targets[1..],
           nextState := NavigateToTarget)
      else
        s.(currState := cur, nextState := Idle, now := s.now + 1)
    else if cur == NavigateToTarget then
      var g := geo(s.nextTargetPos, s.currPos, s.currYaw);
      s.(currState := cur, now := s.now + RotateTime(g.turn) + MoveTime(g.dist),
         currYaw := g.yaw, currPos := s.nextTargetPos, nextState := InspectTarget)
    else if cur == InspectTarget then
      s.(currState := cur, now := s.now + InspectionDuration, nextState := Idle)
    else
      s.(currState := cur, nextState := Idle)
  }

  /** The state after `k` passes through the loop. */
  function RunSpec(s: AuvState, geo: Geometry, k: nat): AuvState {
    if k == 0 then s else StepSpec(RunSpec(s, geo, k - 1), geo)
  }

  /** How many of the first `k` passes were inspections. */
  function Inspections(s: AuvState, geo: Geometry, k: nat): nat {
    if k == 0 then 0
    else Inspections(s, geo, k - 1) + (if RunSpec(s, geo, k - 1).nextState == InspectTarget then 1 else 0)
  }

  /** The target a pass starting in `s` takes off the list: the first one, when idle with targets left. */
  function Taken(s: AuvState): seq<Pos> {
    if s.nextState == Idle && |s.targets| > 0 then [s.targets[0]] else []
  }

  /** The targets taken off the list during the first `k` passes, in the order taken. */
  function Visited(s: AuvState, geo: Geometry, k: nat): seq<Pos> {
    if k == 0 then [] else Visited(s, geo, k - 1) + Taken(RunSpec(s, geo, k - 1))
  }

  /** 1 when a target has been taken but not yet inspected. */
  function Pending(s: AuvState): nat {
    if s.nextState == NavigateToTarget || s.nextState == InspectTarget then 1 else 0
  }

  // ---- one pass ----

  /** Idle with targets left: the first target becomes the goal, the rest stay in order, no time passes. */
  lemma IdleTakesFirstTarget(s: AuvState, geo: Geometry)
    requires s.nextState == Idle && |s.targets| > 0
    ensures var t := StepSpec(s, geo);
      && t.currState == Idle && t.nextState == NavigateToTarget
      && t.nextTargetPos == s.targets[0] && [t.nextTargetPos] + t.targets == s.targets
      && t.now == s.now && t.currPos == s.currPos
  {
  }

  /** Idle with no targets: stay idle and let exactly one time unit pass. */
  lemma IdleWithoutTargetsWaits(s: AuvState, geo: Geometry)
    requires s.nextState == Idle && s.targets == []
    ensures var t := StepSpec(s, geo);
      t.currState == Idle && t.nextState == Idle && t.now == s.now + 1
      && t.targets == [] && t.currPos == s.currPos && t.nextTargetPos == s.nextTargetPos
  {
  }

  /** Navigating always leads to inspecting, and leaves the vehicle at the goal. */
  lemma NavigateArrives(s: AuvState, geo: Geometry)
    requires s.nextState == NavigateToTarget
    ensures var t := StepSpec(s, geo);
      var g := geo(s.nextTargetPos, s.currPos, s.currYaw);
      && t.currState == NavigateToTarget && t.nextState == InspectTarget
      && t.currPos == s.nextTargetPos && t.targets == s.targets
      && t.now == s.now + RotateTime(g.turn) + MoveTime(g.dist)
  {
  }

  /** Inspecting takes exactly the inspection duration and returns to idle, leaving the list alone. */
  lemma InspectWaits(s: AuvState, geo: Geometry)
    requires s.nextState == InspectTarget
    ensures var t := StepSpec(s, geo);
      t.currState == InspectTarget && t.nextState == Idle && t.now == s.now + InspectionDuration
      && t.targets == s.targets && t.currPos == s.currPos
  {
  }

  /** An unknown state code falls back to idle and changes nothing else. */
  lemma UnknownStateFallsBackToIdle(s: AuvState, geo: Geometry)
    requires !Known(s.nextState)
    ensures StepSpec(s, geo) == s.(currState := s.nextState, nextState := Idle)
  {
  }

  // ---- whole runs ----

  /** Every state reached from construction is one of the three known codes: the error branch is dead. */
  lemma {:induction false} ErrorBranchUnreachable(targets: seq<Pos>, geo: Geometry, k: nat)
    ensures Known(RunSpec(Init(targets), geo, k).currState)
    ensures Known(RunSpec(Init(targets), geo, k).nextState)
  {
    if k > 0 {
      ErrorBranchUnreachable(targets, geo, k - 1);
    }
  }

  /** Taking a piece off the front of the rest keeps the whole: `a + b + c` is `a + m` when `b + c` is `m`. */
  lemma Regroup<T>(a: seq<T>, b: seq<T>, c: seq<T>, m: seq<T>, whole: seq<T>)
    requires a + m == whole && b + c == m
    ensures a + b + c == whole
  {
    assert a + b + c == a + (b + c);
  }

  /**
   * One pass's bookkeeping: the target it takes (if any) followed by the list left is the
   * list before, and taking a target moves one unit from the list to the pending target,
   * which an inspection then uses up.
   */
  lemma StepBalance(before: AuvState, geo: Geometry)
    ensures Taken(before) + StepSpec(before, geo).targets == before.targets
    ensures (if before.nextState == InspectTarget then 1 else 0) + Pending(StepSpec(before, geo))
            + |StepSpec(before, geo).targets| == Pending(before) + |before.targets|
  {
    if before.nextState == Idle && |before.targets| > 0 {
      assert before.targets == [before.targets[0]] + before.targets[1..];
    }
  }

  /**
   * Over any number of passes: the visited targets followed by the remaining list are the
   * original list (targets are taken in list order, each entry once), and every inspection
   * uses up one taken target.
   */
  lemma {:induction false} RunConservesTargets(s: AuvState, geo: Geometry, k: nat)
    ensures Visited(s, geo, k) + RunSpec(s, geo, k).targets == s.targets
    ensures Inspections(s, geo, k) + Pending(RunSpec(s, geo, k)) + |RunSpec(s, geo, k).targets|
            == Pending(s) + |s.targets|
  {
    if k > 0 {
      var before := RunSpec(s, geo, k - 1);
      var after := RunSpec(s, geo, k);
      var inspected := if before.nextState == InspectTarget then 1 else 0;
      assert Taken(before) + after.targets == before.targets
             && inspected + Pending(after) + |after.targets| == Pending(before) + |before.targets| by {
        StepBalance(before, geo);
      }
      RunConservesTargets(s, geo, k - 1);
      assert Visited(s, geo, k) == Visited(s, geo, k - 1) + Taken(before);
      Regroup(Visited(s, geo, k - 1), Taken(before), after.targets, before.targets, s.targets);
      assert Inspections(s, geo, k) == Inspections(s, geo, k - 1) + inspected;
    }
  }

  /** From construction, the targets visited are a prefix of the list and inspections never exceed its length. */
  lemma InspectionsBoundedByTargets(targets: seq<Pos>, geo: Geometry, k: nat)
    ensures Inspections(Init(targets), geo, k) <= |targets|
    ensures |Visited(Init(targets), geo, k)| <= |targets|
    ensures Visited(Init(targets), geo, k) == targets[..|Visited(Init(targets), geo, k)|]
  {
    RunConservesTargets(Init(targets), geo, k);
  }

  class Auv {
    var currState: int
    var nextState: int
    var targetList: seq<Pos>
    var nextTargetPos: Pos
    var currPos: Pos
    var currYaw: real
    var now: nat   // the simulation clock when this process resumes

    function State(): AuvState
      reads this
    {
      AuvState(currState, nextState, targetList, nextTargetPos, currPos, currYaw, now)
    }

    constructor (targets: seq<Pos>)
      ensures State() == Init(targets)
    {
      currState, nextState := Idle, Idle;
      targetList := targets;
      nextTargetPos, currPos := Origin, Origin;
      currYaw := 0.0;
      now := 0;
    }

    /** One pass through the loop of `run`. */
    method Step(geo: Geometry)
      modifies this
      ensures State() == StepSpec(old(State()), geo)
    {
      currState := nextState;
      if currState == Idle {
        var hasTargets := false;
        if |targetList| > 0 {
          hasTargets := true;
          nextTargetPos := targetList[0];
          targetList := targetList[1..];
        }
        if hasTargets {
          nextState := NavigateToTarget;
        } else {
          nextState := Idle;
          now := now + 1;
        }
      } else if currState == NavigateToTarget {
        SendPilotReq(nextTargetPos, geo);
        nextState := InspectTarget;
      } else if currState == InspectTarget {
        now := now + InspectionDuration;
        nextState := Idle;
      } else {
        nextState := Idle;
      }
    }

    /** `run` for `steps` passes of its loop. */
    method Run(geo: Geometry, steps: nat)
      modifies this
      ensures State() == RunSpec(old(State()), geo, steps)
    {
      var i := 0;
      while i < steps
        invariant 0 <= i <= steps
        invariant State() == RunSpec(old(State()), geo, i)
      {
        Step(geo);
        i := i + 1;
      }
    }

    /** Turn towards `pos`, then travel to it; afterwards the vehicle is at `pos`. */
    method SendPilotReq(pos: Pos, geo: Geometry)
      modifies this
      ensures var g := geo(pos, old(currPos), old(currYaw));
        && now == old(now) + RotateTime(g.turn) + MoveTime(g.dist)
        && currYaw == g.yaw && currPos == pos
      ensures currState == old(currState) && nextState == old(nextState)
      ensures targetList == old(targetList) && nextTargetPos == old(nextTargetPos)
    {
      var g := geo(pos, currPos, currYaw);
      Rotate(g.turn);
      currYaw := g.yaw;
      Move(g.dist);
      currPos := pos;
    }

    /** Wait for the time a straight move of `distance` takes. */
    method Move(distance: Distance)
      modifies this`now
      ensures now == old(now) + MoveTime(distance)
    {
      now := now + MoveTime(distance);
    }

    /** Wait for the time a turn of `angle` radians takes. */
    method Rotate(angle: real)
      modifies this`now
      ensures now == old(now) + RotateTime(angle)
    {
      now := now + RotateTime(angle);
    }
  }
}
